=== FILE: README.md ===
# pf2e-customizer helpers, modelled in Dafny

pf2e-customizer is a Foundry VTT module for the Pathfinder 2e system. It
hides base skills from the character sheet, defines world-wide custom skills
and shows each custom skill's rank and modifier on the sheet. This project
models the helpers in `scripts/main.js` that hold its logic:

- `proficiencyBonus` and the displayed total (`proficiency.dfy`, module
  `Proficiency`).
- The skill-visibility setting (`visibility.dfy`, module `Visibility`):
  - `defaultVisibility`.
  - `normalizeVisibility`, a loop that repairs the stored object in place
    (a `JsObject` class whose keys keep insertion order).
  - `composeCSS`, a loop that builds one selector block per hidden skill.
- The custom-skill list (`customskills.dfy`, module `CustomSkills`):
  - `normalizeCustomSkills` as functions.
  - `uniqueSlugs` as a method that relabels an `array` of records in place.
  - The data pipeline of `collectCustomForm` as a method over form rows.
- `slugify` (`slugs.dfy`, module `Slugifier`).
- `escapeHtml` and `sign` (`html.dfy`, module `Html`).
- The rank-map update of `getActorRanks`/`setActorRank` (`ranks.dfy`,
  module `Ranks`).

Supporting modules:

- `Text` (`text.dfy`): JavaScript `trim`, ASCII `toLowerCase`, and decimal
  rendering and parsing of integers.
- `JsValues` (`values.dfy`): the JavaScript values the helpers receive, and
  the `String(v)` and `Number(v)` coercions they apply.
- `Lists` (`lists.dfy`): `map`, `filter`, `[...new Set(xs)]` and `join`,
  with the algebra relating them.

Numbers are integers. Character level, the attribute modifier and the
"proficiency without level" world variant are parameters; the host reads
them from the actor and the world settings.

## Model

| member | source | states |
|---|---|---|
| Proficiency.ProficiencyBonus | scripts/main.js:157-165 | Rank 0 (or below) gives 0. Ranks 1..4 give 2·rank, plus the level when the with-level variant is on. A rank of 5 or more falls outside the table yet still receives the level. |
| Proficiency.Total | scripts/main.js:218-220 | The displayed total is the attribute modifier plus the proficiency bonus. Untrained gives the modifier alone. Ranks 1..4 add 2·rank, plus the level with the with-level variant. A rank of 5 or more adds only the level, or nothing without the variant. |
| Proficiency.UntrainedIgnoresLevel | scripts/main.js:161-163 | An untrained total never depends on the character level. |
| Proficiency.TotalMonotoneInRank | scripts/main.js:159-164 | Within the table, for a non-negative level, a higher rank never gives a lower total. |
| Proficiency.RankChangeExample | scripts/main.js:286-292 | Raising a rank recomputes the total: modifier +2 at level 5 goes from 9 (Trained) to 13 (Master). |
| Text.Trim | scripts/main.js:62-64 | The result has no JavaScript whitespace at either end, and already trimmed text is unchanged. `TrimDropsOnlySpaces` states that what is removed is whitespace only. |
| Text.TrimStartDropsSpaces | scripts/main.js:62 | Everything `trim` drops in front is whitespace. |
| Text.TrimEndDropsSpaces | scripts/main.js:62 | Everything `trim` drops at the end is whitespace. |
| Text.TrimDropsOnlySpaces | scripts/main.js:62-64 | The trimmed text is an infix of the input with only whitespace before and after it. |
| Text.TrimAroundWord | scripts/main.js:62 | A word with one space on each side trims back to the word, as in `" Riding "`. |
| Text.Lower | scripts/main.js:63-64 | Character-wise lower-casing, with the same length; the result has no upper-case letter. |
| Text.ParseNatToString | scripts/main.js:92 | The decimal rendering of a number parses back to that number. |
| Text.NatToString | scripts/main.js:82 | `${i}` for a counter: a non-empty run of decimal digits. `ParseNatToString` reads it back, and `NatToStringNoLeadingZero` rules out leading zeros. |
| Text.NatToStringNoLeadingZero | scripts/main.js:92 | Like `${n}`, the rendering starts with `0` only for 0 itself. |
| Text.IntToString | scripts/main.js:92 | `${n}`: non-empty, with a leading `-` exactly for a negative number. `NumberOfString` reads it back. |
| JsValues.StringOr | scripts/main.js:62-64 | `String(v ?? d)`: a missing or null value gives the default, and a string is itself. |
| JsValues.ToJsString | scripts/main.js:62-64 | `String(v)` for each kind of value. Its partner is `NumberOfString`: a number's rendering reads back as that number. |
| JsValues.StringToNumber | scripts/main.js:173 | `Number(s)` is NaN exactly when the trimmed text is neither blank nor an optionally signed run of digits. A negative result comes from a leading minus. |
| JsValues.ToNumber | scripts/main.js:173 | `Number(v)` is NaN exactly for `undefined`, an object, or text that is not a decimal integer. |
| JsValues.NumberOrZero | scripts/main.js:173 | `Number(v) \|\| 0`: NaN becomes 0 and every other number is kept. A number is itself, a boolean 1 or 0. A missing value, `null` and an object give 0, and so does text with no integer in it. A run of digits gives its value. |
| JsValues.NumberOfString | scripts/main.js:286 | A rank written into a form field and read back with `Number` is the same number. |
| Html.EscapeHtmlCorrect | scripts/main.js:87-91 | The four passes equal one per-character replacement. The output holds no `<`, `>` or `"`, and every `&` opens one of the four entities, so nothing is escaped twice. Unescaping the output gives back the input. |
| Html.EscapeHtmlIsPerCharacter | scripts/main.js:89-90 | Replacing `&` first makes the chained passes equal to one pass over each character. |
| Html.EscapeHtmlAppend | scripts/main.js:87-91 | Escaping works piecewise: escaping a concatenation is concatenating the escapes. |
| Html.EscapeHtmlChar | scripts/main.js:89-90 | Applied to one character, the four passes give exactly that character's entity. |
| Html.EscapedShape | scripts/main.js:87-91 | No position of the escaped text holds markup, and every `&` starts an entity. |
| Html.UnescapeEscaped | scripts/main.js:87-91 | Decoding the escaped text returns the text. |
| Html.Sign | scripts/main.js:92 | A non-negative number gets `+`, a negative one `-`. The rest is the digits of its magnitude, with no leading zero except for 0 itself. |
| Html.ReplaceAll | scripts/main.js:89-90 | After a pass, the pattern is gone unless the replacement itself contains it. |
| Html.EscapeHtml | scripts/main.js:87-91 | The four chained passes. What they promise is stated by `EscapeHtmlCorrect`. |
| Slugifier.CollapseRuns | scripts/main.js:73 | The result uses only slug characters and dashes, with no two dashes in a row. It is empty exactly when the input is. It starts with the input's first character when that is a slug character, else with a dash. |
| Slugifier.SkipRun | scripts/main.js:73 | Drops exactly the leading run of characters outside `a-z0-9`: what it drops holds no slug character, and what remains is empty or starts with one. |
| Slugifier.CollapseRunsKeepsSlugChars | scripts/main.js:73 | The collapse keeps every `a-z0-9` character, in order, and adds none. |
| Slugifier.CollapseRunsOfRun | scripts/main.js:73 | A whole run of other characters in front of a slug character (or the end) becomes exactly one dash. |
| Slugifier.CollapseRunsOfWord | scripts/main.js:73 | A word of slug characters is kept as it is, whatever follows it. |
| Slugifier.CollapseFixed | scripts/main.js:73 | Text made of slug characters and single dashes is left unchanged. |
| Slugifier.StripMarks | scripts/main.js:72 | Exactly the characters U+0300..U+036F are removed; every other character is kept, in order. |
| Slugifier.DropLeadingDashes | scripts/main.js:74 | The result is a suffix of the input with no leading dash, and everything dropped is a dash. |
| Slugifier.DropTrailingDashes | scripts/main.js:74 | The result is a prefix of the input with no trailing dash, and everything dropped is a dash. |
| Slugifier.UncutSlug | scripts/main.js:70-74 | Before the cut the slug uses only `a-z0-9-`, has no double dash and no dash at either end. |
| Slugifier.Slugify | scripts/main.js:69-76 | At most 40 characters, only `a-z0-9-`, no leading dash, no double dash. A trailing dash appears only when the 40-character cut made it. |
| Slugifier.SlugIsLowerAndTrimmed | scripts/main.js:69-76 | A slug has no upper-case letter and no surrounding whitespace. |
| Slugifier.SlugifyOfSlug | scripts/main.js:460 | Text of at most 40 characters from `a-z0-9-`, with no double dash and no dash at either end, is its own slug. The form's `s === slugify(s)` test accepts such a slug. |
| Slugifier.SlugifyRiding | scripts/main.js:69-76 | `slugify("Riding")` is `riding`. |
| CustomSkills.NormalizeEntry | scripts/main.js:61-66 | The name is `TrimmedText` of the input name, the slug `LowerText` of the input slug, and the attribute `LowerText` of the input attribute with default `int`: `String(v ?? d)`, then `trim`, then `toLowerCase` for slug and attribute. So the name is trimmed, and slug and attribute are trimmed and lower-case. A missing attribute becomes `int`. `visible` keeps a boolean and is `true` otherwise. |
| CustomSkills.TrimmedText | scripts/main.js:62 | `String(v ?? "").trim()` is trimmed, and already trimmed text is kept. |
| CustomSkills.LowerText | scripts/main.js:63-64 | `String(v ?? d).trim().toLowerCase()` is trimmed and lower-case, and text already so is kept. |
| CustomSkills.Kept | scripts/main.js:67 | The `filter` test: a name, a slug and one of the six attributes. `NormalizeMembers` states what it keeps. |
| CustomSkills.NormalizeCustomSkills | scripts/main.js:58-68 | A non-array gives `[]`. Otherwise the result is no longer than the input, and every record has a non-empty trimmed name, a non-empty trimmed lower-case slug and one of the six attributes. |
| CustomSkills.NormalizeAppend | scripts/main.js:60-67 | Input order is kept: normalizing a concatenation is concatenating the results. |
| CustomSkills.NormalizeMembers | scripts/main.js:60-67 | A record is in the result exactly when it is the normalized form of some input and passes the filter. |
| CustomSkills.NormalizeEntryFixed | scripts/main.js:61-66 | A well-formed record is a fixed point of the per-record normalization. |
| CustomSkills.NormalizeIdempotent | scripts/main.js:58-68 | Normalizing the stored form of a normalized list gives the same list. |
| CustomSkills.CandidateInjective | scripts/main.js:82 | Different counters give different candidate slugs. |
| CustomSkills.Base | scripts/main.js:80 | The record's own slug when it has one, else `Slugify` of its name: at most 40 characters from `a-z0-9-`. It is trimmed and lower-case when the record's slug is. |
| CustomSkills.Candidate | scripts/main.js:82 | A candidate starts with `base-` (or `skill-` for an empty base) and ends in a digit. |
| CustomSkills.FirstFree | scripts/main.js:80-82 | The slug the inner loop picks: the base when non-empty and free, else the first free `base-i` from 2 on. Such a slug is non-empty and not yet taken. |
| CustomSkills.PickSlug | scripts/main.js:80-82 | The chosen slug is non-empty and unseen. It is the base itself when that is non-empty and free, else the first free `base-i` (or `skill-i`) from 2 on. |
| CustomSkills.UniqueSlugs | scripts/main.js:77-86 | The array afterwards is the old one with only slugs replaced. Each slug is what the loop picks for that item's base against the slugs before it. All slugs are non-empty and pairwise distinct. |
| CustomSkills.PickedDistinct | scripts/main.js:78-84 | Slugs chosen one after the other against the ones already taken are pairwise distinct and non-empty. |
| CustomSkills.FirstFreeNormal | scripts/main.js:80-82 | A slug chosen from a trimmed lower-case base is itself trimmed and lower-case. |
| CustomSkills.ReadRow | scripts/main.js:471-475 | A form row reads as its name trimmed, its slug trimmed and then lower-cased, its attribute as typed (default `int`) and the box's state. The slug has no upper-case letter and no surrounding whitespace. |
| CustomSkills.OrElse | scripts/main.js:472-474 | `o ?? d`: the value when present, else the default. |
| CustomSkills.HasName | scripts/main.js:476 | The `filter(e => e.name)` test: the name is non-empty. `Named` states what it keeps. |
| CustomSkills.Reread | scripts/main.js:477-478 | A record whose name and slug are already normalized keeps them through normalization; only its attribute is normalized. |
| CustomSkills.SavedSlugsDistinct | scripts/main.js:477-478 | Distinct slugs stay distinct through the final normalization. |
| CustomSkills.SavedEntriesOfRows | scripts/main.js:470-478 | Reading the rows, dropping nameless ones, then keeping those with a known attribute equals keeping the accepted rows and reading each one. |
| CustomSkills.CollectCustomForm | scripts/main.js:469-479 | The list handed to the normalizer is the named rows in form order, each relabelled with the slug `uniqueSlugs` picks for it against the slugs before it. What is saved is that list normalized. It is well formed and its slugs are pairwise distinct. Apart from slugs, it is exactly the rows with a non-blank name and one of the six attributes, in form order. |
| CustomSkills.Named | scripts/main.js:471-476 | Every row kept by the `filter` step has a non-empty name. |
| CustomSkills.CandidateTwo | scripts/main.js:82 | The first candidate after a collision is `base-2`. |
| CustomSkills.PickedDuplicate | scripts/main.js:77-86 | Of two records with the same non-empty base, the first keeps the base and the second gets `base-2`. |
| CustomSkills.PickedTwoRidings | scripts/main.js:69-86 | Two rows named `Riding` with no slug typed get the slugs `riding` and `riding-2`. |
| Lists.DedupShape | scripts/main.js:101-121 | `[...new Set(xs)]` holds every element of `xs` exactly once and nothing else. |
| Lists.DedupPrefix | scripts/main.js:101-121 | The order of first occurrence: what the first `k` elements contribute comes first, in the same order, whatever follows. |
| Lists.Dedup | scripts/main.js:101-121 | `[...new Set(xs)]`. What it holds is stated by `DedupShape`, and its order by `DedupPrefix`. |
| Lists.Join | scripts/main.js:121-123 | `xs.join(sep)`. Its use in a block is stated by `Visibility.ComposeBlock`. |
| Lists.Map | scripts/main.js:60-66 | `.map(f)`: same length, each element the image of the one at the same place. |
| Lists.Filter | scripts/main.js:67 | `.filter(p)`. `FilterShape` states that it keeps exactly the elements satisfying `p`, and `FilterAppend` that it keeps their order. |
| Visibility.FullName | scripts/main.js:100 | A known key gives its full skill name, and any other key gives itself. The fallback happens exactly for keys that are not skills, and a full name is never a skill key. |
| Visibility.JsObject.Set | scripts/main.js:54 | `obj[k] = v` changes only `k`. A new key goes last, and an existing key keeps its place. |
| Visibility.JsObject.Get | scripts/main.js:54 | `obj[k]`: the stored value, or `undefined` for a key that is not there. |
| Visibility.DefaultVisibility | scripts/main.js:47-49 | A new object with the sixteen skill keys in order, each `true`. |
| Visibility.ForceBooleans | scripts/main.js:53-55 | The loop sets each key of the list that does not hold a boolean to `true`, in list order, and changes nothing else. |
| Visibility.NormalizeVisibility | scripts/main.js:50-57 | Null gives a new all-visible object. An object is repaired in place and returned: its sixteen skill keys are normalized, missing ones appended in skill order. |
| Visibility.NormalizedPropsMeaning | scripts/main.js:53-55 | Afterwards every skill key holds a boolean. A boolean already there is kept, any other value becomes `true`, and keys outside the skills are untouched. |
| Visibility.NormalizedPropsIdempotent | scripts/main.js:50-57 | Normalizing the values twice changes nothing more. |
| Visibility.NormalizedKeysMeaning | scripts/main.js:53-55 | Afterwards every skill key is present, and the old keys come first in their old order. |
| Visibility.NormalizedKeysIdempotent | scripts/main.js:50-57 | A second normalization adds no key. |
| Visibility.DefaultIsNormalizedEmpty | scripts/main.js:47-57 | The default object's keys are what normalizing an empty object gives. |
| Visibility.EntriesOf | scripts/main.js:96 | `Object.entries` gives one entry per key, in key order, each paired with the value stored under it. |
| Visibility.ComposeBlock | scripts/main.js:99-121 | One turn of the loop gives the block of the key. The block joins by `, ` selectors that are pairwise distinct and are exactly the eighteen for the key and its full name, in the order of first occurrence. |
| Visibility.Selectors | scripts/main.js:101-120 | The eighteen selector templates filled in with the key (the first eleven) or the full name (the last seven). |
| Visibility.JoinBlocks | scripts/main.js:98-123 | The loop pushes the blocks of the hidden keys in order. The result joins them with `,\n` and closes them with the hiding declaration. |
| Visibility.ComposeCss | scripts/main.js:95-124 | The result is the hidden keys' blocks joined and closed as above, or the fixed comment when nothing is hidden. |
| Visibility.HiddenMembers | scripts/main.js:96 | A key is hidden exactly when some entry maps it to `false`. |
| Visibility.HiddenOfObject | scripts/main.js:96 | Of an object's entries, a key is hidden exactly when the object holds exactly `false` under it. |
| Visibility.HiddenAppend | scripts/main.js:96 | Hidden keys come in entry order. |
| Visibility.AllVisibleExactly | scripts/main.js:96-97 | The fixed "all visible" comment is returned exactly when no value is `false`. |
| Visibility.Hidden | scripts/main.js:96 | The keys whose value is exactly `false`, in entry order. What it holds is stated by `HiddenMembers` and `HiddenAppend`. |
| Visibility.Block | scripts/main.js:100-121 | The selector list of one hidden key. What it holds is stated by `ComposeBlock`. |
| Visibility.Css | scripts/main.js:95-124 | What `composeCSS` returns. `AllVisibleExactly` states when it is the comment, and `ComposeCss` computes it. |
| Ranks.GetActorRanks | scripts/main.js:168-170 | The stored map, or the empty map when the flag was never written; then every slug reads as Untrained. |
| Ranks.WithRank | scripts/main.js:173 | The slug gets `Number(rank) \|\| 0`, and every other slug's entry is unchanged. |
| Ranks.SetActorRank | scripts/main.js:171-175 | The flag afterwards is the copy read before, with that one rank replaced. Reading the ranks again gives exactly that update. |
| Ranks.RankReadBack | scripts/main.js:217 | A stored rank reads back as its coerced number, never NaN, and other slugs read as before. |
| Ranks.RankOf | scripts/main.js:217 | `Number(ranks[slug] ?? 0)`: a missing or null rank reads as 0 (Untrained), and a stored number as itself. |
| Ranks.NonNumericRankIsZero | scripts/main.js:173 | Non-numeric text, the empty string and a missing value are all stored as rank 0. |
| Ranks.NumericRankKept | scripts/main.js:173 | A numeric string such as `"3"` is stored as its number. |

## Left out

- Foundry host integration is not modelled: hook registration, settings and menu registration, the form and dialog classes, sheet refresh. These are host callbacks.
- DOM work is not modelled: injecting the style tag, finding the proficiency list, creating sheet rows and their listeners, reading form inputs (a form row is given as a `FormRow` value).
- Dice rolls and chat messages are not modelled: they involve randomness and a foreign API.
- Actor data access (`actorLevel`, `abilityMod`, `proficiencyVariantWithLevel`) becomes parameters of `Proficiency.Total`.
- Persistence is not modelled. `actor.setFlag` and `game.settings.set` are asynchronous foreign writes; `Ranks.SetActorRank` assigns the flag field instead.
- `rankSelectHTML`, `buildPf2eCheckFlavor`, `getAbilityLabel` and `getAttrLabels` are presentation or settings lookups and are not modelled.
- Slugifier.Slugify: the NFD decomposition step is not modelled. The input is taken as already decomposed, and only the strip of U+0300..U+036F is modelled.
- Numbers are unbounded integers in this model, while JavaScript numbers are doubles: `${n}` writes values of 1e21 or more with an exponent, and integers above 2^53 lose precision. Ranks, levels, modifiers and slug counters never get that large.
- Text.Lower: `toLowerCase` is modelled for ASCII letters only.
- JsValues.StringToNumber and JsValues.ToNumber: `Number` of a string covers only trimmed, optionally signed decimal integers (blank is 0). Fractions, exponents, hex, `Infinity` and non-integer numbers are not modelled. `Obj` stands for a plain object and reads as NaN; arrays, whose `Number` goes through their string form (`Number([])` is 0), are not distinguished.
- JsValues.ToJsString: objects render as `[object Object]`. Arrays and objects with their own `toString` are not distinguished.
- Visibility.NormalizeVisibility: the non-object case is modelled as `null` only; strings, numbers and booleans take the same branch in the source.
- Visibility.JsObject: integer-like keys are not ordered before other keys, and inherited prototype properties are absent. Neither arises with the skill keys.
- Html.EscapeHtml: takes a string. The `String(s ?? "")` coercion at the head of `escapeHtml` (scripts/main.js:88) is not modelled; the names and labels passed to it are strings.
- Visibility.FullName: a key that names an inherited property of a plain object (such as `constructor`) gives back the key; in the source `FULL_SKILL[abbr] ?? abbr` yields the inherited function there. Skill keys never hit this.
- Ranks.GetActorRanks: other falsy stored values (such as `0` or `""`) that `|| {}` would replace are modelled only as an unset flag.
- CustomSkills.NormalizeCustomSkills: an array element that is not an object reads as a record with four missing properties. Getters and proxies are not modelled.
- Deriving a missing slug from the name inside `normalizeCustomSkills` is not modelled, because the code does not do it: a record whose slug is empty is dropped by the filter (scripts/main.js:67). Slugs are derived only by `uniqueSlugs`.
- In-memory records handed to `normalizeCustomSkills` by `collectCustomForm` are modelled through `ToRaw`. This loses nothing, since they hold plain strings and a boolean.

=== FILE: customskills.dfy ===
/** The world-level list of custom skills: `normalizeCustomSkills` (a
    map-then-filter over the stored records), `uniqueSlugs` (in-place slug
    de-duplication) and the data pipeline of `collectCustomForm`. */
module CustomSkills {
  import opened Text
  import opened JsValues
  import opened Slugifier
  import opened Lists

  /** The six governing attributes a custom skill may use. */
  const AbilitySlugs: seq<string> := ["str", "dex", "con", "int", "wis", "cha"]

  /** The attribute a record without one falls back to. */
  const DefaultAbility: string := "int"

  /** A normalized custom-skill definition. */
  datatype Skill = Skill(name: string, slug: string, ability: string, visible: bool)

  datatype Option<T> = None | Some(value: T)

  /** A stored record as read back from the settings: each property may be
      missing or of any type. An element that is not an object at all reads
      as four missing properties. */
  datatype RawSkill = RawSkill(name: Value, slug: Value, ability: Value, visible: Value)

  /** The stored setting: an array of records, or anything else. */
  datatype Setting = NotAnArray | Array(elems: seq<RawSkill>)

  /** `String(v ?? "").trim()`. */
  function TrimmedText(v: Value): (r: string)
    ensures IsTrimmed(r)
    ensures v.Str? && IsTrimmed(v.s) ==> r == v.s
  {
    Trim(StringOr(v, ""))
  }

  /** `String(v ?? d).trim().toLowerCase()`. */
  function LowerText(v: Value, d: string): (r: string)
    ensures IsTrimmed(r) && IsLower(r)
    ensures v.Str? && IsTrimmed(v.s) && IsLower(v.s) ==> r == v.s
  {
    var t := Trim(StringOr(v, d));
    LowerKeepsTrimmed(t);
    LowerFixed(v);
    Lower(t)
  }

  lemma LowerFixed(v: Value)
    ensures v.Str? && IsLower(v.s) ==> Lower(v.s) == v.s
  {
    if v.Str? && IsLower(v.s) {
      LowerOfLower(v.s);
    }
  }

  /** A missing or null attribute becomes `int`. */
  lemma MissingAbility(v: Value)
    ensures v.Undefined? || v.Null? ==> LowerText(v, DefaultAbility) == DefaultAbility
  {
    if v.Undefined? || v.Null? {
      assert StringOr(v, DefaultAbility) == DefaultAbility;
      assert IsTrimmed(DefaultAbility) && IsLower(DefaultAbility);
      LowerOfLower(DefaultAbility);
    }
  }

  /** The `map` step: coerce to strings, trim, lower-case slug and ability,
      default the ability to `int` and `visible` to true. */
  function NormalizeEntry(e: RawSkill): (r: Skill)
    ensures IsTrimmed(r.name)
    ensures IsTrimmed(r.slug) && IsLower(r.slug)
    ensures IsTrimmed(r.ability) && IsLower(r.ability)
    ensures !e.visible.Bool? ==> r.visible
    ensures e.visible.Bool? ==> r.visible == e.visible.b
    ensures e.ability.Undefined? || e.ability.Null? ==> r.ability == DefaultAbility
    ensures r.name == TrimmedText(e.name)
    ensures r.slug == LowerText(e.slug, "")
    ensures r.ability == LowerText(e.ability, DefaultAbility)
  {
    MissingAbility(e.ability);
    Skill(TrimmedText(e.name), LowerText(e.slug, ""), LowerText(e.ability, DefaultAbility),
          if e.visible.Bool? then e.visible.b else true)
  }

  /** The `filter` step: a name, a slug and a known attribute. */
  predicate Kept(s: Skill) {
    s.name != "" && s.slug != "" && s.ability in AbilitySlugs
  }

  /** What every record of a normalized list satisfies. */
  predicate WellFormed(s: Skill) {
    && s.name != "" && IsTrimmed(s.name)
    && s.slug != "" && IsTrimmed(s.slug) && IsLower(s.slug)
    && s.ability in AbilitySlugs
  }

  /** Every record of the list is well formed. */
  predicate AllWellFormed(items: seq<Skill>) {
    forall i :: 0 <= i < |items| ==> WellFormed(items[i])
  }

  /** `normalizeCustomSkills`: not an array gives `[]`; otherwise `map` then
      `filter`. */
  function NormalizeCustomSkills(v: Setting): (r: seq<Skill>)
    ensures v.NotAnArray? ==> r == []
    ensures v.Array? ==> |r| <= |v.elems|
    ensures AllWellFormed(r)
  {
    match v
    case NotAnArray => []
    case Array(elems) =>
      var mapped := Map(elems, NormalizeEntry);
      FilterShape(mapped, Kept);
      Filter(mapped, Kept)
  }

  /** Normalizing keeps the input order: the result for two lists one after
      the other is the two results one after the other. */
  lemma NormalizeAppend(a: seq<RawSkill>, b: seq<RawSkill>)
    ensures NormalizeCustomSkills(Array(a + b)) == NormalizeCustomSkills(Array(a)) + NormalizeCustomSkills(Array(b))
  {
    MapAppend(a, b, NormalizeEntry);
    FilterAppend(Map(a, NormalizeEntry), Map(b, NormalizeEntry), Kept);
  }

  /** A record survives exactly when its normalized form passes the filter. */
  lemma NormalizeMembers(elems: seq<RawSkill>, x: Skill)
    ensures x in NormalizeCustomSkills(Array(elems)) <==>
      Kept(x) && exists i :: 0 <= i < |elems| && NormalizeEntry(elems[i]) == x
  {
    FilterMapMembers(elems, NormalizeEntry, Kept, x);
  }

  /** A record as it is stored in the settings and read back. */
  function ToRaw(s: Skill): RawSkill {
    RawSkill(Str(s.name), Str(s.slug), Str(s.ability), Bool(s.visible))
  }

  lemma AbilitySlugsNormal(a: string)
    requires a in AbilitySlugs
    ensures IsTrimmed(a) && IsLower(a)
  {
  }

  lemma NormalizeEntryFixed(s: Skill)
    requires WellFormed(s)
    ensures NormalizeEntry(ToRaw(s)) == s
  {
    AbilitySlugsNormal(s.ability);
    var r := NormalizeEntry(ToRaw(s));
    assert r.name == s.name;
    assert r.slug == s.slug;
    assert r.ability == s.ability;
  }

  /** Normalizing a normalized list, once stored and read back, changes
      nothing. */
  lemma NormalizeIdempotent(v: Setting)
    ensures NormalizeCustomSkills(Array(Map(NormalizeCustomSkills(v), ToRaw))) == NormalizeCustomSkills(v)
  {
    var items := NormalizeCustomSkills(v);
    var mapped := Map(Map(items, ToRaw), NormalizeEntry);
    forall i | 0 <= i < |items|
      ensures mapped[i] == items[i]
    {
      NormalizeEntryFixed(items[i]);
    }
    assert mapped == items;
    FilterAll(items, Kept);
  }

  /** The slugs of a list, in order. */
  function Slugs(items: seq<Skill>): (r: seq<string>)
    ensures |r| == |items| && forall i :: 0 <= i < |items| ==> r[i] == items[i].slug
  {
    seq(|items|, i requires 0 <= i < |items| => items[i].slug)
  }

  /** The slug `uniqueSlugs` starts from: the record's own, else one made
      from its name. It is lower-case and trimmed when the record's own slug
      is. */
  function Base(it: Skill): (r: string)
    ensures it.slug != "" ==> r == it.slug
    ensures it.slug == "" ==> r == Slugify(it.name)
    ensures it.slug == "" ==> InSlugAlphabet(r) && |r| <= MaxSlugLength
    ensures IsTrimmed(it.slug) && IsLower(it.slug) ==> IsTrimmed(r) && IsLower(r)
  {
    if it.slug != "" then it.slug
    else
      SlugIsLowerAndTrimmed(Slugify(it.name));
      Slugify(it.name)
  }

  /** The `i`-th candidate after a collision: `base-i`, or `skill-i` when the
      base is empty; it ends in a digit (see `CandidateInjective` for why the
      candidates differ). */
  function Candidate(base: string, i: nat): (r: string)
    ensures r != [] && IsDigit(r[|r| - 1])
    ensures base != "" ==> base + "-" <= r
    ensures base == "" ==> "skill-" <= r
  {
    (if base != "" then base else "skill") + "-" + NatToString(i)
  }

  lemma CandidateInjective(base: string, i: nat, j: nat)
    requires Candidate(base, i) == Candidate(base, j)
    ensures i == j
  {
    var p := (if base != "" then base else "skill") + "-";
    assert Candidate(base, i) == p + NatToString(i);
    assert Candidate(base, i)[|p|..] == NatToString(i);
    assert Candidate(base, j)[|p|..] == NatToString(j);
    NatToStringInjective(i, j);
  }

  /** `s` is the slug `uniqueSlugs` picks for an item with this base when
      `taken` are the slugs already handed out: the base itself when it is
      non-empty and free, else the first free candidate from 2 on. */
  ghost predicate FirstFree(base: string, taken: seq<string>, s: string): (b: bool)
    ensures b ==> s != "" && s !in taken
  {
    if base != "" && base !in taken then s == base
    else exists j :: j >= 2 && s == Candidate(base, j) && s !in taken
                   && forall k :: 2 <= k < j ==> Candidate(base, k) in taken
  }

  /** The inner loop of `uniqueSlugs`: from the base, try `base-2`,
      `base-3`, ... (or `skill-2`, ...) until the slug is non-empty and not in
      `seen`. It ends because the candidates are pairwise distinct and `seen`
      is finite. */
  method PickSlug(base: string, ghost taken: seq<string>, seen: set<string>) returns (s: string)
    requires forall x :: x in seen <==> x in taken
    ensures s != "" && s !in seen
    ensures FirstFree(base, taken, s)
  {
    s := base;
    var i := 2;
    ghost var tried: set<string> := {};
    while s in seen || s == ""
      invariant i >= 2
      invariant i == 2 ==> s == base
      invariant i > 2 ==> s == Candidate(base, i - 1) && (base == "" || base in seen)
      invariant forall j :: 2 <= j < i - 1 ==> Candidate(base, j) in seen
      invariant tried <= seen
      invariant |tried| == if i == 2 then 0 else i - 3
      invariant forall j :: j >= 2 && j >= i - 1 ==> Candidate(base, j) !in tried
      decreases |seen| + 3 - i
    {
      if i > 2 {
        forall j | j >= 2 && j >= i
          ensures Candidate(base, j) != s
        {
          if Candidate(base, j) == s {
            CandidateInjective(base, j, i - 1);
          }
        }
        tried := tried + {s};
      }
      s := if base != "" then base + "-" + NatToString(i) else "skill-" + NatToString(i);
      i := i + 1;
      SubsetSize(tried, seen);
    }
    if i > 2 {
      assert s == Candidate(base, i - 1);
    }
  }

  /** Each slug of `slugs` is the one `PickSlug` chooses for the base at the
      same position against the slugs before it. */
  ghost predicate Picked(bases: seq<string>, slugs: seq<string>) {
    |slugs| <= |bases| && forall m :: 0 <= m < |slugs| ==> FirstFree(bases[m], slugs[..m], slugs[m])
  }

  /** The first `|slugs|` items with their slugs replaced, everything else
      kept. */
  function Relabel(items: seq<Skill>, slugs: seq<string>): (r: seq<Skill>)
    requires |slugs| <= |items|
    ensures |r| == |slugs|
    ensures forall m :: 0 <= m < |slugs| ==> r[m].slug == slugs[m]
    ensures forall m :: 0 <= m < |slugs| ==>
      r[m].name == items[m].name && r[m].ability == items[m].ability && r[m].visible == items[m].visible
  {
    seq(|slugs|, m requires 0 <= m < |slugs| => items[m].(slug := slugs[m]))
  }

  lemma PickedExtend(bases: seq<string>, slugs: seq<string>, s: string)
    requires Picked(bases, slugs) && |slugs| < |bases|
    requires FirstFree(bases[|slugs|], slugs, s)
    ensures Picked(bases, slugs + [s])
  {
    var t := slugs + [s];
    forall m | 0 <= m < |t|
      ensures FirstFree(bases[m], t[..m], t[m])
    {
      if m < |slugs| {
        assert t[..m] == slugs[..m] && t[m] == slugs[m];
      } else {
        assert t[..m] == slugs;
      }
    }
  }

  /** Slugs picked one after another are non-empty and pairwise distinct. */
  lemma PickedDistinct(bases: seq<string>, slugs: seq<string>)
    requires Picked(bases, slugs)
    ensures Distinct(slugs)
    ensures forall m :: 0 <= m < |slugs| ==> slugs[m] != ""
  {
    forall i, j | 0 <= i < j < |slugs|
      ensures slugs[i] != slugs[j]
    {
      assert slugs[i] in slugs[..j];
    }
  }

  /** `uniqueSlugs`: gives every item, in list order, the slug `PickSlug`
      chooses against the slugs handed out before it, changing nothing else;
      afterwards all slugs are non-empty and pairwise distinct. */
  method UniqueSlugs(items: array<Skill>)
    modifies items
    ensures items[..] == Relabel(old(items[..]), Slugs(items[..]))
    ensures Picked(Map(old(items[..]), Base), Slugs(items[..]))
    ensures Distinct(Slugs(items[..]))
    ensures forall k :: 0 <= k < items.Length ==> items[k].slug != ""
  {
    ghost var orig := items[..];
    ghost var bases := Map(orig, Base);
    ghost var done: seq<string> := [];
    var seen: set<string> := {};
    var k := 0;
    while k < items.Length
      invariant 0 <= k <= items.Length
      invariant |done| == k
      invariant forall x :: x in seen <==> x in done
      invariant items[..k] == Relabel(orig, done)
      invariant items[k..] == orig[k..]
      invariant Picked(bases, done)
    {
      var it := items[k];
      assert it == orig[k] by { assert items[k..][0] == it; }
      var s := PickSlug(if it.slug != "" then it.slug else Slugify(it.name), done, seen);
      PickedExtend(bases, done, s);
      items[k] := it.(slug := s);
      seen := seen + {s};
      done := done + [s];
      k := k + 1;
      assert items[..k] == Relabel(orig, done);
      assert items[k..] == orig[k..];
    }
    assert items[..] == items[..k];
    assert Slugs(items[..]) == done;
    PickedDistinct(bases, done);
  }

  lemma SubsetSize(a: set<string>, b: set<string>)
    requires a <= b
    ensures |a| <= |b|
  {
    assert b == a + (b - a);
  }

  /** A candidate `base-i` (or `skill-i`) is lower-case and trimmed when its
      base is: it starts with the base's first character and ends in a
      digit. */
  lemma CandidateNormal(base: string, i: nat)
    requires IsTrimmed(base) && IsLower(base)
    ensures IsTrimmed(Candidate(base, i)) && IsLower(Candidate(base, i))
  {
    var p := if base != "" then base else "skill";
    var d := NatToString(i);
    var c := Candidate(base, i);
    assert c == p + "-" + d;
    assert c[0] == p[0];
    assert c[|c| - 1] == d[|d| - 1];
    forall k | 0 <= k < |c|
      ensures !('A' <= c[k] <= 'Z')
    {
      if k < |p| {
        assert c[k] == p[k];
      } else if k > |p| {
        assert c[k] == d[k - |p| - 1];
      }
    }
  }

  /** Every slug `PickSlug` can choose is lower-case and trimmed when its
      base is. */
  lemma FirstFreeNormal(base: string, taken: seq<string>, s: string)
    requires IsTrimmed(base) && IsLower(base)
    requires FirstFree(base, taken, s)
    ensures IsTrimmed(s) && IsLower(s)
  {
    if !(base != "" && base !in taken) {
      var j :| j >= 2 && s == Candidate(base, j) && s !in taken
        && forall k :: 2 <= k < j ==> Candidate(base, k) in taken;
      CandidateNormal(base, j);
    }
  }

  /** One row of the custom-skills form: the values of its name, slug and
      attribute inputs (`None` for an input the row lacks) and whether its
      visibility box is checked. */
  datatype FormRow = FormRow(name: Option<string>, slug: Option<string>, ability: Option<string>, visible: bool)

  /** `o ?? d`. */
  function OrElse(o: Option<string>, d: string): (r: string)
    ensures o.Some? ==> r == o.value
    ensures o.None? ==> r == d
  {
    if o.Some? then o.value else d
  }

  /** The `map` step of `collectCustomForm`: name trimmed, slug trimmed and
      lower-cased, attribute taken as it is (default `int`), the box's state. */
  function ReadRow(row: FormRow): (r: Skill)
    ensures IsTrimmed(r.name) && IsTrimmed(r.slug) && IsLower(r.slug)
    ensures r.name == Trim(OrElse(row.name, "")) && r.visible == row.visible
    ensures r.slug == Lower(Trim(OrElse(row.slug, "")))
    ensures r.ability == OrElse(row.ability, DefaultAbility)
  {
    var slug := Trim(OrElse(row.slug, ""));
    LowerKeepsTrimmed(slug);
    Skill(Trim(OrElse(row.name, "")), Lower(slug), OrElse(row.ability, DefaultAbility), row.visible)
  }

  /** The `filter` step of `collectCustomForm`: rows with a name. */
  predicate HasName(s: Skill) {
    s.name != ""
  }

  /** What the settings end up holding for a form row, apart from its slug. */
  function SavedEntry(row: FormRow): Skill {
    Skill(Trim(OrElse(row.name, "")), "", Lower(Trim(OrElse(row.ability, DefaultAbility))), row.visible)
  }

  /** The form rows that end up saved: a non-blank name and one of the six
      attributes. */
  predicate Accepted(row: FormRow) {
    SavedEntry(row).name != "" && SavedEntry(row).ability in AbilitySlugs
  }

  /** A record with its slug blanked out. */
  function Unslugged(s: Skill): Skill {
    s.(slug := "")
  }

  /** The slug of a record after a round through the settings. */
  function RereadSlug(x: RawSkill): string {
    NormalizeEntry(x).slug
  }

  /** A record whose name and slug are already normalized keeps them when it
      is stored and normalized again; only its attribute is normalized. */
  lemma Reread(x: Skill)
    requires IsTrimmed(x.name) && IsTrimmed(x.slug) && IsLower(x.slug)
    ensures NormalizeEntry(ToRaw(x)) == x.(ability := Lower(Trim(x.ability)))
  {
    var e := NormalizeEntry(ToRaw(x));
    assert e.name == x.name;
    assert e.slug == x.slug;
    assert e.ability == Lower(Trim(x.ability));
  }

  /** The attribute filter on a row read from the form. */
  predicate AbilityOk(s: Skill) {
    Lower(Trim(s.ability)) in AbilitySlugs
  }

  predicate ReadAccepted(s: Skill) {
    HasName(s) && AbilityOk(s)
  }

  function SavedOfRead(s: Skill): Skill {
    Skill(s.name, "", Lower(Trim(s.ability)), s.visible)
  }

  predicate KeptRaw(x: RawSkill) {
    Kept(NormalizeEntry(x))
  }

  function UnsluggedEntry(x: RawSkill): Skill {
    Unslugged(NormalizeEntry(x))
  }

  /** After de-duplication the slugs are all lower-case and trimmed. */
  lemma PickedNormal(data: seq<Skill>, slugs: seq<string>)
    requires forall i :: 0 <= i < |data| ==> IsTrimmed(data[i].slug) && IsLower(data[i].slug)
    requires Picked(Map(data, Base), slugs)
    ensures forall m :: 0 <= m < |slugs| ==> IsTrimmed(slugs[m]) && IsLower(slugs[m])
  {
    forall m | 0 <= m < |slugs|
      ensures IsTrimmed(slugs[m]) && IsLower(slugs[m])
    {
      FirstFreeNormal(Base(data[m]), slugs[..m], slugs[m]);
    }
  }

  /** What is saved is the stored records that pass the filter once
      re-read. */
  lemma SavedIsKeptRereads(final: seq<Skill>)
    ensures NormalizeCustomSkills(Array(Map(final, ToRaw)))
         == Map(Filter(Map(final, ToRaw), KeptRaw), NormalizeEntry)
  {
    FilterOfMap(Map(final, ToRaw), NormalizeEntry, Kept, KeptRaw);
  }

  /** Re-reading keeps slugs that are already normalized, so distinct slugs
      stay distinct in what is saved. */
  lemma SavedSlugsDistinct(final: seq<Skill>)
    requires forall k :: 0 <= k < |final| ==>
      IsTrimmed(final[k].name) && IsTrimmed(final[k].slug) && IsLower(final[k].slug)
    requires Distinct(Slugs(final))
    ensures Distinct(Slugs(NormalizeCustomSkills(Array(Map(final, ToRaw)))))
  {
    var raws := Map(final, ToRaw);
    forall i | 0 <= i < |final|
      ensures RereadSlug(raws[i]) == final[i].slug
    {
      Reread(final[i]);
    }
    assert Map(raws, RereadSlug) == Slugs(final);
    FilterMapDistinct(raws, KeptRaw, RereadSlug);
    SavedIsKeptRereads(final);
    var kept := Filter(raws, KeptRaw);
    assert Slugs(Map(kept, NormalizeEntry)) == Map(kept, RereadSlug);
  }

  /** A row with a name, once given a normalized non-empty slug, is saved
      exactly when its attribute is one of the six, and as its name, its
      normalized attribute and its visibility. */
  lemma RereadRow(x: Skill, d: Skill)
    requires x == d.(slug := x.slug) && x.slug != "" && IsTrimmed(x.slug) && IsLower(x.slug)
    requires d.name != "" && IsTrimmed(d.name)
    ensures KeptRaw(ToRaw(x)) == AbilityOk(d)
    ensures UnsluggedEntry(ToRaw(x)) == SavedOfRead(d)
  {
    Reread(x);
  }

  /** `RereadRow` for every position. */
  lemma RereadRows(data: seq<Skill>, final: seq<Skill>)
    requires |final| == |data|
    requires forall k :: 0 <= k < |final| ==> final[k] == data[k].(slug := final[k].slug)
    requires forall k :: 0 <= k < |final| ==>
      final[k].slug != "" && IsTrimmed(final[k].slug) && IsLower(final[k].slug)
    requires forall k :: 0 <= k < |data| ==> data[k].name != "" && IsTrimmed(data[k].name)
    ensures forall i :: 0 <= i < |final| ==> KeptRaw(ToRaw(final[i])) == AbilityOk(data[i])
    ensures forall i :: 0 <= i < |final| ==> UnsluggedEntry(ToRaw(final[i])) == SavedOfRead(data[i])
  {
    forall i | 0 <= i < |final|
      ensures KeptRaw(ToRaw(final[i])) == AbilityOk(data[i])
      ensures UnsluggedEntry(ToRaw(final[i])) == SavedOfRead(data[i])
    {
      RereadRow(final[i], data[i]);
    }
  }

  /** Apart from the slugs, what is saved is the de-duplicated rows whose
      attribute is known. */
  lemma SavedEntriesOfData(data: seq<Skill>, final: seq<Skill>)
    requires |final| == |data|
    requires forall i :: 0 <= i < |final| ==> KeptRaw(ToRaw(final[i])) == AbilityOk(data[i])
    requires forall i :: 0 <= i < |final| ==> UnsluggedEntry(ToRaw(final[i])) == SavedOfRead(data[i])
    ensures Map(NormalizeCustomSkills(Array(Map(final, ToRaw))), Unslugged) == Map(Filter(data, AbilityOk), SavedOfRead)
  {
    var raws := Map(final, ToRaw);
    SavedIsKeptRereads(final);
    MapMap(Filter(raws, KeptRaw), NormalizeEntry, Unslugged, UnsluggedEntry);
    FilterMapCongruent(raws, data, KeptRaw, AbilityOk, UnsluggedEntry, SavedOfRead);
  }

  /** What a row read from the form saves is what the row itself saves. */
  lemma ReadRowSaved(row: FormRow)
    ensures SavedEntry(row) == SavedOfRead(ReadRow(row))
  {
    var r := ReadRow(row);
    var a := OrElse(row.ability, DefaultAbility);
    assert r.ability == a;
    var saved := Skill(r.name, "", Lower(Trim(a)), r.visible);
    assert SavedEntry(row) == saved;
    assert SavedOfRead(r) == saved;
  }

  /** Reading a row and then judging it is judging the row. */
  lemma ReadRowAccepted(row: FormRow)
    ensures Accepted(row) == ReadAccepted(ReadRow(row))
  {
    var r := ReadRow(row);
    ReadRowSaved(row);
    var saved := SavedOfRead(r);
    assert HasName(r) == (saved.name != "");
    assert AbilityOk(r) == (saved.ability in AbilitySlugs);
  }

  /** The rows with a name, filtered by attribute, are the accepted rows. */
  lemma SavedEntriesOfRows(rows: seq<FormRow>)
    ensures Map(Filter(Filter(Map(rows, ReadRow), HasName), AbilityOk), SavedOfRead)
         == Map(Filter(rows, Accepted), SavedEntry)
  {
    forall row | true
      ensures Accepted(row) == ReadAccepted(ReadRow(row))
      ensures SavedEntry(row) == SavedOfRead(ReadRow(row))
    {
      ReadRowAccepted(row);
      ReadRowSaved(row);
    }
    FilterFilter(Map(rows, ReadRow), HasName, AbilityOk, ReadAccepted);
    FilterOfMap(rows, ReadRow, ReadAccepted, Accepted);
    MapMap(Filter(rows, Accepted), ReadRow, SavedOfRead, SavedEntry);
  }

  /** The shape `ReadRow` gives a row. */
  predicate ReadShape(s: Skill) {
    IsTrimmed(s.name) && IsTrimmed(s.slug) && IsLower(s.slug)
  }

  /** The rows with a name, as read: a non-blank trimmed name and a trimmed
      lower-case slug. */
  lemma DataShape(rows: seq<FormRow>, data: seq<Skill>)
    requires data == Filter(Map(rows, ReadRow), HasName)
    ensures forall k :: 0 <= k < |data| ==> HasName(data[k]) && ReadShape(data[k])
  {
    var r := Map(rows, ReadRow);
    FilterShape(r, HasName);
    FilterKeeps(r, HasName, ReadShape);
  }

  /** After `uniqueSlugs` each row is the row as read with a new slug that is
      non-empty, trimmed and lower-case. */
  lemma FinalShape(data: seq<Skill>, final: seq<Skill>)
    requires forall k :: 0 <= k < |data| ==> HasName(data[k]) && ReadShape(data[k])
    requires |final| == |data| && final == Relabel(data, Slugs(final))
    requires Picked(Map(data, Base), Slugs(final))
    requires forall k :: 0 <= k < |final| ==> final[k].slug != ""
    ensures forall k :: 0 <= k < |final| ==> final[k] == data[k].(slug := final[k].slug)
    ensures forall k :: 0 <= k < |final| ==>
      final[k].slug != "" && IsTrimmed(final[k].slug) && IsLower(final[k].slug)
    ensures forall k :: 0 <= k < |data| ==> data[k].name != "" && IsTrimmed(data[k].name)
  {
    PickedNormal(data, Slugs(final));
  }

  /** What `collectCustomForm` promises, from what `uniqueSlugs` leaves in
      the rows with a name. */
  lemma CollectFacts(rows: seq<FormRow>, data: seq<Skill>, final: seq<Skill>)
    requires data == Filter(Map(rows, ReadRow), HasName)
    requires |final| == |data| && final == Relabel(data, Slugs(final))
    requires Picked(Map(data, Base), Slugs(final))
    requires Distinct(Slugs(final))
    requires forall k :: 0 <= k < |final| ==> final[k].slug != ""
    ensures Distinct(Slugs(NormalizeCustomSkills(Array(Map(final, ToRaw)))))
    ensures Map(NormalizeCustomSkills(Array(Map(final, ToRaw))), Unslugged) == Map(Filter(rows, Accepted), SavedEntry)
  {
    DataShape(rows, data);
    FinalShape(data, final);
    SavedSlugsDistinct(final);
    RereadRows(data, final);
    SavedEntriesOfData(data, final);
    SavedEntriesOfRows(rows);
  }

  /** A new array holding `data`, as `map` and `filter` return one. */
  method NewArray(data: seq<Skill>) returns (a: array<Skill>)
    ensures fresh(a) && a[..] == data
  {
    a := new Skill[|data|](i requires 0 <= i < |data| => data[i]);
  }

  /** The `map` and `filter` steps of `collectCustomForm`: the rows read,
      those without a name dropped. */
  function Named(rows: seq<FormRow>): (r: seq<Skill>)
    ensures forall k :: 0 <= k < |r| ==> r[k].name != ""
  {
    FilterShape(Map(rows, ReadRow), HasName);
    Filter(Map(rows, ReadRow), HasName)
  }

  /** `collectCustomForm`: read the rows, drop those without a name, give
      every row a distinct slug, and normalize. `final` is the list handed to
      the normalizer: the named rows in form order, each with the slug
      `uniqueSlugs` picks for it. What is saved is well formed, its slugs are
      pairwise distinct, and apart from the slugs it is exactly the rows with
      a name and a known attribute, in form order. */
  method CollectCustomForm(rows: seq<FormRow>) returns (saved: seq<Skill>, ghost final: seq<Skill>)
    ensures |final| == |Named(rows)| && final == Relabel(Named(rows), Slugs(final))
    ensures Picked(Map(Named(rows), Base), Slugs(final))
    ensures saved == NormalizeCustomSkills(Array(Map(final, ToRaw)))
    ensures AllWellFormed(saved)
    ensures Distinct(Slugs(saved))
    ensures Map(saved, Unslugged) == Map(Filter(rows, Accepted), SavedEntry)
  {
    var data := Filter(Map(rows, ReadRow), HasName);
    var items := NewArray(data);
    UniqueSlugs(items);
    var relabelled := items[..];
    CollectFacts(rows, data, relabelled);
    saved := NormalizeCustomSkills(Array(Map(relabelled, ToRaw)));
    final := relabelled;
  }

  /** The first candidate after a collision is `base-2`. */
  lemma CandidateTwo(b: string)
    requires b != ""
    ensures Candidate(b, 2) == b + "-2"
  {
    assert NatToString(2) == "2";
  }

  /** Two records with the same non-empty base: the first keeps it, the
      second gets `base-2`. */
  lemma PickedDuplicate(b: string, slugs: seq<string>)
    requires b != "" && |slugs| == 2 && Picked([b, b], slugs)
    ensures slugs == [b, b + "-2"]
  {
    assert FirstFree(b, slugs[..0], slugs[0]);
    assert slugs[..0] == [];
    assert slugs[0] == b;
    assert slugs[..1] == [b];
    assert FirstFree(b, slugs[..1], slugs[1]);
    assert |Candidate(b, 2)| > |b|;
    var j :| j >= 2 && slugs[1] == Candidate(b, j) && slugs[1] !in [b]
             && forall k :: 2 <= k < j ==> Candidate(b, k) in [b];
    assert j == 2;
    CandidateTwo(b);
  }

  /** Two rows both named `Riding` with no slug typed are saved as `riding`
      and `riding-2`. */
  lemma PickedTwoRidings(slugs: seq<string>)
    requires |slugs| == 2 && Picked([Slugify("Riding"), Slugify("Riding")], slugs)
    ensures slugs == ["riding", "riding-2"]
  {
    var b := Slugify("Riding");
    PickedDuplicate(b, slugs);
    RidingSuffixed(b);
  }

  lemma RidingSuffixed(b: string)
    requires b == Slugify("Riding")
    ensures b == "riding" && b + "-2" == "riding-2"
  {
    SlugifyRiding();
  }
}

=== FILE: html.dfy ===
/** The two string builders used in the sheet rows: `escapeHtml`, four
    `replaceAll` passes with `&` first, and `sign`, which prefixes a
    non-negative number with `+`. */
module Html {
  import opened Text

  /** `s.replaceAll(c, rep)` for a one-character pattern: afterwards the
      pattern is gone unless the replacement brings it back. */
  function ReplaceAll(s: string, c: char, rep: string): (r: string)
    ensures c !in rep ==> c !in r
  {
    if s == [] then [] else (if s[0] == c then rep else [s[0]]) + ReplaceAll(s[1..], c, rep)
  }

  lemma {:induction false} ReplaceAllAppend(a: string, b: string, c: char, rep: string)
    ensures ReplaceAll(a + b, c, rep) == ReplaceAll(a, c, rep) + ReplaceAll(b, c, rep)
  {
    if a == [] {
      assert a + b == b;
    } else {
      assert (a + b)[0] == a[0];
      assert (a + b)[1..] == a[1..] + b;
      ReplaceAllAppend(a[1..], b, c, rep);
      var h := if a[0] == c then rep else [a[0]];
      assert ReplaceAll(a + b, c, rep) == h + ReplaceAll(a[1..] + b, c, rep);
    }
  }

  /** Text without the pattern is left as it is. */
  lemma {:induction false} ReplaceAllAbsent(s: string, c: char, rep: string)
    requires c !in s
    ensures ReplaceAll(s, c, rep) == s
  {
    if s != [] {
      assert s[0] != c;
      ReplaceAllAbsent(s[1..], c, rep);
    }
  }

  lemma ReplaceAllOne(x: char, c: char, rep: string)
    ensures ReplaceAll([x], c, rep) == if x == c then rep else [x]
  {
    assert [x][1..] == [];
  }

  /** `escapeHtml` on a string: four whole-string replacements, `&` first,
      then `<`, `>` and `"`. */
  function EscapeHtml(s: string): string {
    ReplaceAll(ReplaceAll(ReplaceAll(ReplaceAll(s, '&', "&amp;"), '<', "&lt;"), '>', "&gt;"), '"', "&quot;")
  }

  /** What the escaper promises: no `<`, `>` or `"` is left, every `&` opens
      one of the four entities (so nothing is escaped twice), and decoding
      gives back the input. */
  lemma EscapeHtmlCorrect(s: string)
    ensures EscapeHtml(s) == Escaped(s)
    ensures forall i :: 0 <= i < |EscapeHtml(s)| ==> NotMarkup(EscapeHtml(s)[i])
    ensures forall i :: 0 <= i < |EscapeHtml(s)| && EscapeHtml(s)[i] == '&' ==> EntityAt(EscapeHtml(s), i)
    ensures Unescape(EscapeHtml(s)) == s
  {
    EscapeHtmlIsPerCharacter(s);
    EscapedShape(s);
    UnescapeEscaped(s);
    var r := EscapeHtml(s);
    forall i | 0 <= i < |r|
      ensures NotMarkup(r[i]) && (r[i] == '&' ==> EntityAt(r, i))
    {
      assert SafeAt(r, i);
    }
  }

  /** A character that cannot open or close a tag or an attribute value. */
  predicate NotMarkup(c: char) {
    c != '<' && c != '>' && c != '"'
  }

  /** The replacement of one character, as all four passes together make it. */
  function EscapeChar(c: char): string {
    if c == '&' then "&amp;"
    else if c == '<' then "&lt;"
    else if c == '>' then "&gt;"
    else if c == '"' then "&quot;"
    else [c]
  }

  /** A one-pass reference definition: every character replaced by its entity. */
  function Escaped(s: string): string {
    if s == [] then [] else EscapeChar(s[0]) + Escaped(s[1..])
  }

  /** An entity starts at position `i` of `r`. */
  predicate EntityAt(r: string, i: nat) {
    || (i + 5 <= |r| && r[i..i + 5] == "&amp;")
    || (i + 4 <= |r| && r[i..i + 4] == "&lt;")
    || (i + 4 <= |r| && r[i..i + 4] == "&gt;")
    || (i + 6 <= |r| && r[i..i + 6] == "&quot;")
  }

  /** Position `i` of `r` holds no `<`, `>` or `"`, and opens an entity if
      it holds `&`. */
  predicate SafeAt(r: string, i: nat)
    requires i < |r|
  {
    r[i] != '<' && r[i] != '>' && r[i] != '"' && (r[i] == '&' ==> EntityAt(r, i))
  }

  /** Does `r` begin with `e`? */
  predicate StartsWith(r: string, e: string) {
    |e| <= |r| && r[..|e|] == e
  }

  /** The decoder the escaper is the inverse of: each entity back to its
      character, every other character kept. */
  function Unescape(r: string): string {
    if r == [] then []
    else if StartsWith(r, "&amp;") then "&" + Unescape(r[5..])
    else if StartsWith(r, "&lt;") then "<" + Unescape(r[4..])
    else if StartsWith(r, "&gt;") then ">" + Unescape(r[4..])
    else if StartsWith(r, "&quot;") then "\"" + Unescape(r[6..])
    else [r[0]] + Unescape(r[1..])
  }

  lemma EscapeHtmlAppend(a: string, b: string)
    ensures EscapeHtml(a + b) == EscapeHtml(a) + EscapeHtml(b)
  {
    var a1, b1 := ReplaceAll(a, '&', "&amp;"), ReplaceAll(b, '&', "&amp;");
    ReplaceAllAppend(a, b, '&', "&amp;");
    var a2, b2 := ReplaceAll(a1, '<', "&lt;"), ReplaceAll(b1, '<', "&lt;");
    ReplaceAllAppend(a1, b1, '<', "&lt;");
    var a3, b3 := ReplaceAll(a2, '>', "&gt;"), ReplaceAll(b2, '>', "&gt;");
    ReplaceAllAppend(a2, b2, '>', "&gt;");
    ReplaceAllAppend(a3, b3, '"', "&quot;");
  }

  /** The passes after the first leave text without their patterns as it
      is. */
  lemma LastThreePassesKeep(e: string)
    requires '<' !in e && '>' !in e && '"' !in e
    ensures ReplaceAll(ReplaceAll(ReplaceAll(e, '<', "&lt;"), '>', "&gt;"), '"', "&quot;") == e
  {
    ReplaceAllAbsent(e, '<', "&lt;");
    ReplaceAllAbsent(e, '>', "&gt;");
    ReplaceAllAbsent(e, '"', "&quot;");
  }

  lemma LastTwoPassesKeep(e: string)
    requires '>' !in e && '"' !in e
    ensures ReplaceAll(ReplaceAll(e, '>', "&gt;"), '"', "&quot;") == e
  {
    ReplaceAllAbsent(e, '>', "&gt;");
    ReplaceAllAbsent(e, '"', "&quot;");
  }

  /** On one character the four passes give that character's entity: an
      entity made by one pass contains none of the later patterns. */
  lemma EscapeHtmlChar(c: char)
    ensures EscapeHtml([c]) == EscapeChar(c)
  {
    ReplaceAllOne(c, '&', "&amp;");
    if c == '&' {
      LastThreePassesKeep("&amp;");
    } else {
      ReplaceAllOne(c, '<', "&lt;");
      if c == '<' {
        LastTwoPassesKeep("&lt;");
      } else {
        ReplaceAllOne(c, '>', "&gt;");
        if c == '>' {
          ReplaceAllAbsent("&gt;", '"', "&quot;");
        } else {
          ReplaceAllOne(c, '"', "&quot;");
        }
      }
    }
  }

  /** Replacing `&` first makes the four passes equal to one pass that
      replaces each character on its own, so nothing is escaped twice. */
  lemma {:induction false} EscapeHtmlIsPerCharacter(s: string)
    ensures EscapeHtml(s) == Escaped(s)
  {
    if s != [] {
      assert s == [s[0]] + s[1..];
      EscapeHtmlAppend([s[0]], s[1..]);
      EscapeHtmlChar(s[0]);
      EscapeHtmlIsPerCharacter(s[1..]);
    }
  }

  /** An entity further on stays an entity when text is put in front. */
  lemma EntityAtShift(e: string, rest: string, j: nat)
    requires EntityAt(rest, j)
    ensures EntityAt(e + rest, |e| + j)
  {
    var r, i := e + rest, |e| + j;
    if j + 5 <= |rest| && rest[j..j + 5] == "&amp;" {
      assert r[i..i + 5] == rest[j..j + 5];
    } else if j + 4 <= |rest| && rest[j..j + 4] == "&lt;" {
      assert r[i..i + 4] == rest[j..j + 4];
    } else if j + 4 <= |rest| && rest[j..j + 4] == "&gt;" {
      assert r[i..i + 4] == rest[j..j + 4];
    } else {
      assert r[i..i + 6] == rest[j..j + 6];
    }
  }

  /** Each character's replacement is safe at every position, whatever
      follows it. */
  lemma EscapeCharSafe(c: char, rest: string, i: nat)
    requires i < |EscapeChar(c)|
    ensures SafeAt(EscapeChar(c) + rest, i)
  {
    var e := EscapeChar(c);
    var r := e + rest;
    assert r[..|e|] == e;
    if r[i] == '&' {
      assert r[0..|e|] == e;
    }
  }

  /** No `<`, `>` or `"` is left, and every `&` opens an entity. */
  lemma {:induction false} EscapedShape(s: string)
    ensures forall i :: 0 <= i < |Escaped(s)| ==> SafeAt(Escaped(s), i)
  {
    if s != [] {
      EscapedShape(s[1..]);
      var e, rest := EscapeChar(s[0]), Escaped(s[1..]);
      var r := e + rest;
      assert r == Escaped(s);
      forall i | 0 <= i < |r|
        ensures SafeAt(r, i)
      {
        if i < |e| {
          EscapeCharSafe(s[0], rest, i);
        } else {
          assert SafeAt(rest, i - |e|);
          assert r[i] == rest[i - |e|];
          if r[i] == '&' {
            EntityAtShift(e, rest, i - |e|);
          }
        }
      }
    }
  }

  /** An entity in front of more text decodes to its character. */
  lemma UnescapeEntity(e: string, c: char, rest: string)
    requires (e, c) in [("&amp;", '&'), ("&lt;", '<'), ("&gt;", '>'), ("&quot;", '"')]
    ensures Unescape(e + rest) == [c] + Unescape(rest)
  {
    var r := e + rest;
    assert r[|e|..] == rest;
    assert r[..|e|] == e;
    assert r[1] == e[1];
  }

  /** Any other character in front of more text decodes to itself. */
  lemma UnescapePlain(c: char, rest: string)
    requires c != '&'
    ensures Unescape([c] + rest) == [c] + Unescape(rest)
  {
    var r := [c] + rest;
    assert r[0] == c && r[1..] == rest;
  }

  /** Decoding one escaped character in front of more text. */
  lemma UnescapeStep(c: char, rest: string)
    ensures Unescape(EscapeChar(c) + rest) == [c] + Unescape(rest)
  {
    if c == '&' {
      UnescapeEntity("&amp;", c, rest);
    } else if c == '<' {
      UnescapeEntity("&lt;", c, rest);
    } else if c == '>' {
      UnescapeEntity("&gt;", c, rest);
    } else if c == '"' {
      UnescapeEntity("&quot;", c, rest);
    } else {
      UnescapePlain(c, rest);
    }
  }

  /** Decoding the escaped text gives back the text. */
  lemma {:induction false} UnescapeEscaped(s: string)
    ensures Unescape(Escaped(s)) == s
  {
    if s != [] {
      UnescapeStep(s[0], Escaped(s[1..]));
      UnescapeEscaped(s[1..]);
    }
  }

  /** `sign(n)`: `+n` when `n >= 0`, else the plain rendering with its `-`. */
  function Sign(n: int): (r: string)
    ensures |r| >= 2
    ensures n >= 0 <==> r[0] == '+'
    ensures n < 0 <==> r[0] == '-'
    ensures AllDigits(r[1..]) && ParseDigits(r[1..]) == if n >= 0 then n else -n
    ensures r[1] == '0' ==> n == 0
  {
    var m := if n >= 0 then n else -n;
    ParseNatToString(m);
    NatToStringNoLeadingZero(m);
    if n >= 0 then "+" + IntToString(n) else IntToString(n)
  }
}

=== FILE: lists.dfy ===
/** `Array.prototype.map` and `Array.prototype.filter` on finite lists, and
    the algebra that relates them. */
module Lists {

  /** `xs.map(f)`. */
  function Map<A, B>(xs: seq<A>, f: A -> B): (r: seq<B>)
    ensures |r| == |xs| && forall i :: 0 <= i < |xs| ==> r[i] == f(xs[i])
  {
    seq(|xs|, i requires 0 <= i < |xs| => f(xs[i]))
  }

  /** `xs.filter(p)`. */
  function Filter<A>(xs: seq<A>, p: A -> bool): seq<A> {
    if xs == [] then [] else (if p(xs[0]) then [xs[0]] else []) + Filter(xs[1..], p)
  }

  lemma MapAppend<A, B>(xs: seq<A>, ys: seq<A>, f: A -> B)
    ensures Map(xs + ys, f) == Map(xs, f) + Map(ys, f)
  {
  }

  /** The filter keeps exactly the elements that pass, and no more of them
      than there were. */
  lemma {:induction false} FilterShape<A>(xs: seq<A>, p: A -> bool)
    ensures |Filter(xs, p)| <= |xs|
    ensures forall i :: 0 <= i < |Filter(xs, p)| ==> p(Filter(xs, p)[i])
    ensures forall x :: x in Filter(xs, p) <==> x in xs && p(x)
  {
    if xs != [] {
      FilterShape(xs[1..], p);
      assert xs == [xs[0]] + xs[1..];
    }
  }

  /** Filtering works element by element, in order. */
  lemma {:induction false} FilterAppend<A>(xs: seq<A>, ys: seq<A>, p: A -> bool)
    ensures Filter(xs + ys, p) == Filter(xs, p) + Filter(ys, p)
  {
    if xs == [] {
      assert xs + ys == ys;
    } else {
      var h := if p(xs[0]) then [xs[0]] else [];
      assert (xs + ys)[0] == xs[0];
      assert (xs + ys)[1..] == xs[1..] + ys;
      assert Filter(xs + ys, p) == h + Filter(xs[1..] + ys, p);
      FilterAppend(xs[1..], ys, p);
      assert h + (Filter(xs[1..], p) + Filter(ys, p)) == (h + Filter(xs[1..], p)) + Filter(ys, p);
    }
  }

  lemma FilterOne<A>(x: A, p: A -> bool)
    ensures Filter([x], p) == if p(x) then [x] else []
  {
    assert [x][1..] == [];
  }

  /** What holds of every element holds of every kept element. */
  lemma {:induction false} FilterKeeps<A>(xs: seq<A>, p: A -> bool, q: A -> bool)
    requires forall i :: 0 <= i < |xs| ==> q(xs[i])
    ensures forall i :: 0 <= i < |Filter(xs, p)| ==> q(Filter(xs, p)[i])
  {
    if xs != [] {
      FilterKeeps(xs[1..], p, q);
      var h := if p(xs[0]) then [xs[0]] else [];
      assert Filter(xs, p) == h + Filter(xs[1..], p);
    }
  }

  /** A filter every element passes changes nothing. */
  lemma {:induction false} FilterAll<A>(xs: seq<A>, p: A -> bool)
    requires forall i :: 0 <= i < |xs| ==> p(xs[i])
    ensures Filter(xs, p) == xs
  {
    if xs != [] {
      FilterAll(xs[1..], p);
    }
  }

  /** A filter no element passes leaves nothing. */
  lemma {:induction false} FilterNone<A>(xs: seq<A>, p: A -> bool)
    requires forall i :: 0 <= i < |xs| ==> !p(xs[i])
    ensures Filter(xs, p) == []
  {
    if xs != [] {
      FilterNone(xs[1..], p);
    }
  }

  /** An element of a mapped-then-filtered list is the image of some input
      that passes the filter, and every such image is kept. */
  lemma FilterMapMembers<A, B>(xs: seq<A>, f: A -> B, p: B -> bool, x: B)
    ensures x in Filter(Map(xs, f), p) <==> p(x) && exists i :: 0 <= i < |xs| && f(xs[i]) == x
  {
    var mapped := Map(xs, f);
    FilterShape(mapped, p);
    if x in mapped {
      var i :| 0 <= i < |mapped| && mapped[i] == x;
      assert f(xs[i]) == x;
    }
  }

  /** Filtering the images is mapping the inputs whose image passes. */
  lemma {:induction false} FilterOfMap<A, B>(xs: seq<A>, f: A -> B, p: B -> bool, q: A -> bool)
    requires forall x :: q(x) == p(f(x))
    ensures Filter(Map(xs, f), p) == Map(Filter(xs, q), f)
  {
    if xs != [] {
      var h := if q(xs[0]) then [xs[0]] else [];
      assert Map(xs, f) == [f(xs[0])] + Map(xs[1..], f);
      FilterAppend([f(xs[0])], Map(xs[1..], f), p);
      FilterOne(f(xs[0]), p);
      FilterOfMap(xs[1..], f, p, q);
      MapAppend(h, Filter(xs[1..], q), f);
    }
  }

  /** Two filters one after the other are one filter by the conjunction. */
  lemma {:induction false} FilterFilter<A>(xs: seq<A>, p: A -> bool, q: A -> bool, pq: A -> bool)
    requires forall x :: pq(x) == (p(x) && q(x))
    ensures Filter(Filter(xs, p), q) == Filter(xs, pq)
  {
    if xs != [] {
      var h := if p(xs[0]) then [xs[0]] else [];
      FilterAppend(h, Filter(xs[1..], p), q);
      FilterOne(xs[0], q);
      FilterFilter(xs[1..], p, q, pq);
    }
  }

  /** Two lists that agree position by position on the filter and, where it
      passes, on the image give the same filtered images. */
  lemma {:induction false} FilterMapCongruent<A, B, C>(xs: seq<A>, ys: seq<B>, p: A -> bool, q: B -> bool,
                                                       f: A -> C, g: B -> C)
    requires |xs| == |ys|
    requires forall i :: 0 <= i < |xs| ==> p(xs[i]) == q(ys[i])
    requires forall i :: 0 <= i < |xs| && p(xs[i]) ==> f(xs[i]) == g(ys[i])
    ensures Map(Filter(xs, p), f) == Map(Filter(ys, q), g)
  {
    if xs != [] {
      var hx := if p(xs[0]) then [xs[0]] else [];
      var hy := if q(ys[0]) then [ys[0]] else [];
      FilterMapCongruent(xs[1..], ys[1..], p, q, f, g);
      MapAppend(hx, Filter(xs[1..], p), f);
      MapAppend(hy, Filter(ys[1..], q), g);
    }
  }

  /** No element occurs twice. */
  predicate Distinct<T(==)>(s: seq<T>) {
    forall i, j :: 0 <= i < j < |s| ==> s[i] != s[j]
  }

  /** Mapping twice is mapping by the composition. */
  lemma MapMap<A, B, C>(xs: seq<A>, f: A -> B, g: B -> C, h: A -> C)
    requires forall x :: h(x) == g(f(x))
    ensures Map(Map(xs, f), g) == Map(xs, h)
  {
  }

  /** Where the `t`-th kept element came from. */
  lemma {:induction false} FilterSource<A>(xs: seq<A>, p: A -> bool, t: nat) returns (k: nat)
    requires t < |Filter(xs, p)|
    ensures k < |xs| && xs[k] == Filter(xs, p)[t]
  {
    var h := if p(xs[0]) then [xs[0]] else [];
    if t < |h| {
      k := 0;
    } else {
      var k' := FilterSource(xs[1..], p, t - |h|);
      k := k' + 1;
    }
  }

  /** Dropping elements keeps distinct images distinct. */
  lemma {:induction false} FilterMapDistinct<A, B>(xs: seq<A>, p: A -> bool, g: A -> B)
    requires Distinct(Map(xs, g))
    ensures Distinct(Map(Filter(xs, p), g))
  {
    if xs != [] {
      var rest := xs[1..];
      var tail := Filter(rest, p);
      assert Map(rest, g) == Map(xs, g)[1..];
      FilterMapDistinct(rest, p, g);
      forall t | 0 <= t < |tail|
        ensures g(tail[t]) != g(xs[0])
      {
        var k := FilterSource(rest, p, t);
        assert Map(xs, g)[k + 1] == g(tail[t]);
      }
      var h := if p(xs[0]) then [xs[0]] else [];
      MapAppend(h, tail, g);
      var r := Map(h + tail, g);
      forall i, j | 0 <= i < j < |r|
        ensures r[i] != r[j]
      {
        if i < |h| {
          assert r[i] == g(xs[0]) && r[j] == g(tail[j - |h|]);
        } else {
          assert r[i] == Map(tail, g)[i - |h|] && r[j] == Map(tail, g)[j - |h|];
        }
      }
    }
  }

  /** `[...new Set(xs)]`: the elements in order of first occurrence. */
  function Dedup<T(==)>(xs: seq<T>): seq<T> {
    if xs == [] then []
    else
      var d := Dedup(xs[..|xs| - 1]);
      if xs[|xs| - 1] in d then d else d + [xs[|xs| - 1]]
  }

  /** The set keeps every element once and nothing else. */
  lemma {:induction false} DedupShape<T>(xs: seq<T>)
    ensures Distinct(Dedup(xs))
    ensures forall x :: x in Dedup(xs) <==> x in xs
  {
    if xs != [] {
      var init := xs[..|xs| - 1];
      DedupShape(init);
      assert xs == init + [xs[|xs| - 1]];
    }
  }

  /** The order of first occurrence: what the first `k` elements
      contribute comes first, in the same order, whatever follows. */
  lemma {:induction false} DedupPrefix<T>(xs: seq<T>, k: nat)
    requires k <= |xs|
    ensures Dedup(xs[..k]) <= Dedup(xs)
  {
    if k < |xs| {
      var init := xs[..|xs| - 1];
      DedupPrefix(init, k);
      assert init[..k] == xs[..k];
    } else {
      assert xs[..k] == xs;
    }
  }

  /** `xs.join(sep)`. */
  function Join(xs: seq<string>, sep: string): string {
    if xs == [] then ""
    else if |xs| == 1 then xs[0]
    else Join(xs[..|xs| - 1], sep) + sep + xs[|xs| - 1]
  }
}

=== FILE: proficiency.dfy ===
/** The modifier of a custom skill: the governing attribute's modifier plus a
    proficiency bonus that depends on the rank (Untrained 0 .. Legendary 4)
    and, under the "proficiency with level" world variant, on the character
    level. The variant and the level are parameters; reading them from the
    world settings and from the actor is host glue. */
module Proficiency {

  /** Bonus by rank, Untrained .. Legendary. */
  const RankTable: seq<int> := [0, 2, 4, 6, 8]

  /** `proficiencyBonus`: the table entry (0 for a rank outside the table),
      plus the level when the rank is at least 1 and the variant adds it. */
  function ProficiencyBonus(rank: int, withLevel: bool, level: int): (r: int)
    ensures rank <= 0 ==> r == 0
    ensures 1 <= rank <= 4 ==> r == 2 * rank + (if withLevel then level else 0)
    ensures rank >= 5 ==> r == (if withLevel then level else 0)
  {
    var base := if 0 <= rank < |RankTable| then RankTable[rank] else 0;
    if rank >= 1 && withLevel then base + level else base
  }

  /** The displayed total `abilMod + prof`. */
  function Total(abilityMod: int, rank: int, withLevel: bool, level: int): (r: int)
    ensures rank <= 0 ==> r == abilityMod
    ensures 1 <= rank <= 4 && !withLevel ==> r == abilityMod + 2 * rank
    ensures 1 <= rank <= 4 && withLevel ==> r == abilityMod + 2 * rank + level
    ensures rank >= 5 ==> r == abilityMod + (if withLevel then level else 0)
  {
    abilityMod + ProficiencyBonus(rank, withLevel, level)
  }

  /** The untrained total never depends on the level, with or without the
      variant. */
  lemma UntrainedIgnoresLevel(abilityMod: int, withLevel: bool, level1: int, level2: int)
    ensures Total(abilityMod, 0, withLevel, level1) == Total(abilityMod, 0, withLevel, level2)
  {
  }

  /** Within the table a higher rank never gives a lower total, provided the
      level is not negative. */
  lemma TotalMonotoneInRank(abilityMod: int, rank1: int, rank2: int, withLevel: bool, level: nat)
    requires 0 <= rank1 <= rank2 <= 4
    ensures Total(abilityMod, rank1, withLevel, level) <= Total(abilityMod, rank2, withLevel, level)
  {
  }

  /** Raising a Trained skill with modifier +2 to Master at level 5 under the
      with-level variant moves the total from 9 to 13. */
  lemma RankChangeExample()
    ensures Total(2, 1, true, 5) == 9
    ensures Total(2, 3, true, 5) == 13
  {
  }
}

=== FILE: ranks.dfy ===
/** The per-actor rank of each custom skill, kept in the actor's `ranks`
    flag as a map from skill slug to rank: `getActorRanks` reads a copy of
    it, `setActorRank` stores a copy with one rank replaced. */
module Ranks {
  import opened Text
  import opened JsValues

  /** The `ranks` flag of an actor: never written, or a slug-to-rank map. */
  datatype Flag = Unset | Stored(ranks: map<string, Value>)

  /** The part of an actor the rank helpers touch: its `ranks` flag. */
  class Actor {
    var rankFlag: Flag

    constructor (flag: Flag)
      ensures rankFlag == flag
    {
      rankFlag := flag;
    }
  }

  /** `getActorRanks`: the stored map, or the empty map when the flag was
      never written, so that every skill of an actor nobody ranked reads as
      Untrained. Maps are values here, so the result is a copy. */
  function GetActorRanks(actor: Actor): (r: map<string, Value>)
    reads actor
    ensures actor.rankFlag.Unset? ==> r == map[]
    ensures actor.rankFlag.Stored? ==> r == actor.rankFlag.ranks
    ensures actor.rankFlag.Unset? ==> forall slug :: RankOf(r, slug) == Finite(0)
  {
    if actor.rankFlag.Unset? then map[] else actor.rankFlag.ranks
  }

  /** `ranks[slug] = Number(rank) || 0`: the slug gets the coerced rank and
      every other entry is kept. */
  function WithRank(ranks: map<string, Value>, slug: string, rank: Value): (r: map<string, Value>)
    ensures slug in r && r[slug] == Num(NumberOrZero(rank))
    ensures forall k :: k != slug ==> (k in r <==> k in ranks)
    ensures forall k :: k != slug && k in ranks ==> r[k] == ranks[k]
  {
    ranks[slug := Num(NumberOrZero(rank))]
  }

  /** `setActorRank`: read a copy of the map, replace one rank, write the
      copy back as the flag. */
  method SetActorRank(actor: Actor, slug: string, rank: Value)
    modifies actor
    ensures actor.rankFlag == Stored(WithRank(old(GetActorRanks(actor)), slug, rank))
    ensures GetActorRanks(actor) == WithRank(old(GetActorRanks(actor)), slug, rank)
  {
    var ranks := GetActorRanks(actor);
    ranks := WithRank(ranks, slug, rank);
    actor.rankFlag := Stored(ranks);
  }

  /** How the sheet reads a rank back: `Number(ranks[slug] ?? 0)`. A slug
      without a rank (or with a null one) reads as 0, a stored number as
      itself. */
  function RankOf(ranks: map<string, Value>, slug: string): (r: Number)
    ensures slug !in ranks ==> r == Finite(0)
    ensures slug in ranks && ranks[slug].Null? ==> r == Finite(0)
    ensures slug in ranks && ranks[slug].Num? ==> r == Finite(ranks[slug].n)
  {
    var v := if slug in ranks then ranks[slug] else Undefined;
    ToNumber(if v.Undefined? || v.Null? then Num(0) else v)
  }

  /** A rank written by `setActorRank` reads back as the number it was
      coerced to, never NaN, and leaves the other slugs' ranks alone. */
  lemma RankReadBack(ranks: map<string, Value>, slug: string, rank: Value, other: string)
    requires other != slug
    ensures RankOf(WithRank(ranks, slug, rank), slug) == Finite(NumberOrZero(rank))
    ensures RankOf(WithRank(ranks, slug, rank), other) == RankOf(ranks, other)
  {
  }

  /** Text that is not a number, an empty selection and a missing value are
      all stored as rank 0. */
  lemma NonNumericRankIsZero(ranks: map<string, Value>)
    ensures WithRank(ranks, "lore", Str("abc"))["lore"] == Num(0)
    ensures WithRank(ranks, "lore", Str(""))["lore"] == Num(0)
    ensures WithRank(ranks, "lore", Undefined)["lore"] == Num(0)
  {
    assert IsTrimmed("abc") && !IsDigit('a');
  }

  /** A numeric string is stored as its number. */
  lemma NumericRankKept(ranks: map<string, Value>)
    ensures WithRank(ranks, "lore", Str("3"))["lore"] == Num(3)
  {
    assert IsTrimmed("3") && AllDigits("3") && ParseDigits("3") == 3;
  }
}

=== FILE: slugs.dfy ===
/** `slugify`: lower-case, drop combining marks, turn every run of characters
    outside `a-z0-9` into one `-`, strip dashes at both ends, cut to 40
    characters. */
module Slugifier {
  import opened Text
  import opened Lists

  /** The longest slug `slugify` produces. */
  const MaxSlugLength: nat := 40

  /** The Combining Diacritical Marks block, U+0300 .. U+036F. */
  predicate IsCombiningMark(c: char) {
    '\U{300}' <= c <= '\U{36F}'
  }

  /** A character the strip keeps. */
  predicate IsBaseChar(c: char) {
    !IsCombiningMark(c)
  }

  /** The combining-mark strip: every character of U+0300 .. U+036F removed,
      every other character kept in order. */
  function StripMarks(s: string): (r: string)
    ensures r == Filter(s, IsBaseChar)
    ensures |r| <= |s| && forall i :: 0 <= i < |r| ==> !IsCombiningMark(r[i])
  {
    FilterShape(s, IsBaseChar);
    if s == [] then []
    else if IsCombiningMark(s[0]) then StripMarks(s[1..])
    else [s[0]] + StripMarks(s[1..])
  }

  /** A character the slug keeps. */
  predicate IsSlugChar(c: char) {
    ('a' <= c <= 'z') || ('0' <= c <= '9')
  }

  /** Every character is a slug character or a dash. */
  predicate InSlugAlphabet(s: string) {
    forall i :: 0 <= i < |s| ==> IsSlugChar(s[i]) || s[i] == '-'
  }

  /** No two dashes stand next to each other. */
  predicate NoDoubleDash(s: string) {
    forall i :: 0 <= i < |s| - 1 ==> s[i] != '-' || s[i + 1] != '-'
  }

  /** Drops the run of non-slug characters at the front of `s`. */
  function SkipRun(s: string): (r: string)
    ensures |r| <= |s| && r == s[|s| - |r|..]
    ensures r == [] || IsSlugChar(r[0])
    ensures forall i :: 0 <= i < |s| - |r| ==> !IsSlugChar(s[i])
  {
    if s != [] && !IsSlugChar(s[0]) then
      var r := SkipRun(s[1..]);
      assert s[1..][|s| - 1 - |r|..] == s[|s| - |r|..];
      assert forall i :: 1 <= i < |s| - |r| ==> s[i] == s[1..][i - 1];
      r
    else s
  }

  /** `replace(/[^a-z0-9]+/g, "-")`: each maximal run of other characters
      becomes a single dash (see `CollapseRunsOfRun`, `CollapseRunsOfWord`
      and `CollapseRunsKeepsSlugChars` for the content). */
  function CollapseRuns(s: string): (r: string)
    ensures InSlugAlphabet(r) && NoDoubleDash(r)
    ensures r == [] <==> s == []
    ensures s != [] && IsSlugChar(s[0]) ==> r[0] == s[0]
    ensures s != [] && !IsSlugChar(s[0]) ==> r[0] == '-'
    decreases |s|
  {
    if s == [] then []
    else if IsSlugChar(s[0]) then [s[0]] + CollapseRuns(s[1..])
    else "-" + CollapseRuns(SkipRun(s[1..]))
  }

  /** `replace(/^-+/, "")`: only dashes are dropped, all of them. */
  function DropLeadingDashes(s: string): (r: string)
    ensures |r| <= |s| && r == s[|s| - |r|..]
    ensures r == [] || r[0] != '-'
    ensures forall i :: 0 <= i < |s| - |r| ==> s[i] == '-'
  {
    if s != [] && s[0] == '-' then
      var r := DropLeadingDashes(s[1..]);
      assert s[1..][|s| - 1 - |r|..] == s[|s| - |r|..];
      assert forall i :: 1 <= i < |s| - |r| ==> s[i] == s[1..][i - 1];
      r
    else s
  }

  /** `replace(/-+$/, "")`: only dashes are dropped, all of them. */
  function DropTrailingDashes(s: string): (r: string)
    ensures |r| <= |s| && r == s[..|r|]
    ensures r == [] || r[|r| - 1] != '-'
    ensures forall i :: |r| <= i < |s| ==> s[i] == '-'
  {
    if s != [] && s[|s| - 1] == '-' then
      var r := DropTrailingDashes(s[..|s| - 1]);
      assert s[..|s| - 1][..|r|] == s[..|r|];
      assert forall i :: |r| <= i < |s| - 1 ==> s[i] == s[..|s| - 1][i];
      r
    else s
  }

  /** An infix of a dash-separated slug is still one. */
  lemma InfixKeepsShape(s: string, i: nat, j: nat)
    requires i <= j <= |s|
    requires InSlugAlphabet(s) && NoDoubleDash(s)
    ensures InSlugAlphabet(s[i..j]) && NoDoubleDash(s[i..j])
  {
    var t := s[i..j];
    forall k | 0 <= k < |t| - 1
      ensures t[k] != '-' || t[k + 1] != '-'
    {
      assert t[k] == s[i + k] && t[k + 1] == s[i + k + 1];
    }
  }

  /** Dropping the leading dashes keeps the shape and leaves none in front. */
  lemma LeadingShape(c: string)
    requires InSlugAlphabet(c) && NoDoubleDash(c)
    ensures var l := DropLeadingDashes(c);
      InSlugAlphabet(l) && NoDoubleDash(l) && (l == [] || l[0] != '-')
  {
    var l := DropLeadingDashes(c);
    InfixKeepsShape(c, |c| - |l|, |c|);
  }

  /** Dropping the trailing dashes keeps the shape and leaves none at the
      end, nor in front when there was none. */
  lemma TrailingShape(l: string)
    requires InSlugAlphabet(l) && NoDoubleDash(l) && (l == [] || l[0] != '-')
    ensures var t := DropTrailingDashes(l);
      InSlugAlphabet(t) && NoDoubleDash(t) && (t == [] || (t[0] != '-' && t[|t| - 1] != '-'))
  {
    var t := DropTrailingDashes(l);
    InfixKeepsShape(l, 0, |t|);
    assert t == l[0..|t|];
    if t != [] {
      assert t[0] == l[0];
    }
  }

  /** The slug before the 40-character cut: only `a-z`, `0-9` and `-`, no
      two dashes in a row and no dash at either end. */
  function UncutSlug(name: string): (t: string)
    ensures InSlugAlphabet(t) && NoDoubleDash(t)
    ensures t == [] || (t[0] != '-' && t[|t| - 1] != '-')
  {
    var c := CollapseRuns(StripMarks(Lower(name)));
    LeadingShape(c);
    var l := DropLeadingDashes(c);
    TrailingShape(l);
    DropTrailingDashes(l)
  }

  /** `slugify(name)` on text that is already in decomposed form. What it
      promises: only `a-z`, `0-9` and `-`, at most 40 characters, no leading
      dash, no two dashes in a row, and a trailing dash only when the
      40-character cut made one. */
  function Slugify(name: string): (r: string)
    ensures |r| <= MaxSlugLength
    ensures InSlugAlphabet(r) && NoDoubleDash(r)
    ensures r == [] || r[0] != '-'
    ensures r != [] && r[|r| - 1] == '-' ==> |r| == MaxSlugLength < |UncutSlug(name)|
  {
    var t := UncutSlug(name);
    if |t| <= MaxSlugLength then t
    else
      InfixKeepsShape(t, 0, MaxSlugLength);
      t[..MaxSlugLength]
  }

  /** A slug contains neither upper-case letters nor spaces. */
  lemma SlugIsLowerAndTrimmed(s: string)
    requires InSlugAlphabet(s)
    ensures IsLower(s) && IsTrimmed(s)
  {
  }

  /** A run of characters outside `a-z0-9` in front of a slug character
      (or of the end) is skipped as a whole. */
  lemma {:induction false} SkipRunOfRun(run: string, rest: string)
    requires forall i :: 0 <= i < |run| ==> !IsSlugChar(run[i])
    requires rest == [] || IsSlugChar(rest[0])
    ensures SkipRun(run + rest) == rest
  {
    if run == [] {
      assert run + rest == rest;
    } else {
      assert (run + rest)[0] == run[0];
      assert (run + rest)[1..] == run[1..] + rest;
      SkipRunOfRun(run[1..], rest);
    }
  }

  /** The skipped run holds no slug character. */
  lemma {:induction false} SkipRunKeepsSlugChars(s: string)
    ensures Filter(SkipRun(s), IsSlugChar) == Filter(s, IsSlugChar)
  {
    if s != [] && !IsSlugChar(s[0]) {
      SkipRunKeepsSlugChars(s[1..]);
    }
  }

  /** The collapse keeps every `a-z0-9` character, in order, and adds none:
      only dashes are put in. */
  lemma {:induction false} CollapseRunsKeepsSlugChars(s: string)
    ensures Filter(CollapseRuns(s), IsSlugChar) == Filter(s, IsSlugChar)
    decreases |s|
  {
    if s != [] {
      var r := CollapseRuns(s);
      if IsSlugChar(s[0]) {
        var rest := CollapseRuns(s[1..]);
        CollapseRunsKeepsSlugChars(s[1..]);
        FilterAppend([s[0]], rest, IsSlugChar);
        FilterOne(s[0], IsSlugChar);
      } else {
        var t := SkipRun(s[1..]);
        var rest := CollapseRuns(t);
        CollapseRunsKeepsSlugChars(t);
        SkipRunKeepsSlugChars(s[1..]);
        FilterAppend("-", rest, IsSlugChar);
        FilterOne('-', IsSlugChar);
      }
    }
  }

  /** Each maximal run of other characters becomes exactly one dash. */
  lemma CollapseRunsOfRun(run: string, rest: string)
    requires run != [] && forall i :: 0 <= i < |run| ==> !IsSlugChar(run[i])
    requires rest == [] || IsSlugChar(rest[0])
    ensures CollapseRuns(run + rest) == "-" + CollapseRuns(rest)
  {
    assert (run + rest)[0] == run[0];
    assert (run + rest)[1..] == run[1..] + rest;
    SkipRunOfRun(run[1..], rest);
  }

  /** A word of slug characters is kept as it is, whatever follows. */
  lemma {:induction false} CollapseRunsOfWord(w: string, rest: string)
    requires forall i :: 0 <= i < |w| ==> IsSlugChar(w[i])
    ensures CollapseRuns(w + rest) == w + CollapseRuns(rest)
  {
    if w == [] {
      assert w + rest == rest;
    } else {
      var x := w + rest;
      assert x[0] == w[0] && IsSlugChar(x[0]);
      assert x[1..] == w[1..] + rest;
      assert CollapseRuns(x) == [w[0]] + CollapseRuns(x[1..]);
      CollapseRunsOfWord(w[1..], rest);
      assert [w[0]] + (w[1..] + CollapseRuns(rest)) == w + CollapseRuns(rest);
    }
  }

  /** Text already made of words joined by single dashes is unchanged by the
      collapse. */
  lemma {:induction false} CollapseFixed(s: string)
    requires InSlugAlphabet(s) && NoDoubleDash(s)
    ensures CollapseRuns(s) == s
  {
    if s != [] {
      var t := s[1..];
      assert s == [s[0]] + t;
      InfixKeepsShape(s, 1, |s|);
      CollapseFixed(t);
      if !IsSlugChar(s[0]) {
        assert t == [] || IsSlugChar(t[0]) by {
          if t != [] {
            assert s[0] == '-' && t[0] == s[1];
          }
        }
        assert SkipRun(t) == t;
      }
    }
  }

  /** A slug is its own slug: text of at most 40 characters from `a-z0-9-`
      with no dash at either end and no two in a row goes through `slugify`
      unchanged. The settings form relies on this to tell a derived slug
      from a typed one. */
  lemma SlugifyOfSlug(s: string)
    requires InSlugAlphabet(s) && NoDoubleDash(s) && |s| <= MaxSlugLength
    requires s == [] || (s[0] != '-' && s[|s| - 1] != '-')
    ensures Slugify(s) == s
  {
    SlugIsLowerAndTrimmed(s);
    LowerOfLower(s);
    FilterAll(s, IsBaseChar);
    CollapseFixed(s);
  }

  /** `slugify("Riding")` is `"riding"`. */
  lemma SlugifyRiding()
    ensures Slugify("Riding") == "riding"
  {
    assert Lower("Riding") == "riding";
    LowerOfLower("riding");
    SlugifyOfSlug("riding");
  }
}

=== FILE: text.dfy ===
/** String primitives of the JavaScript runtime that the sheet helpers rely on:
    `String.prototype.trim`, `toLowerCase` (ASCII letters only) and the decimal
    rendering of integers used by template literals. */
module Text {

  /** The characters `String.prototype.trim` removes: WhiteSpace and
      LineTerminator of the ECMAScript grammar (section 12.2 and 12.3 of
      ECMA-262), including every Zs space separator. */
  predicate IsJsSpace(c: char) {
    || c == '\t' || c == '\n' || c == '\U{B}' || c == '\U{C}' || c == '\r'
    || c == ' ' || c == '\U{A0}' || c == '\U{1680}'
    || ('\U{2000}' <= c <= '\U{200A}')
    || c == '\U{2028}' || c == '\U{2029}' || c == '\U{202F}' || c == '\U{205F}'
    || c == '\U{3000}' || c == '\U{FEFF}'
  }

  /** Neither end of `s` is a space. */
  predicate IsTrimmed(s: string) {
    s == [] || (!IsJsSpace(s[0]) && !IsJsSpace(s[|s| - 1]))
  }

  /** `trimStart`: the leading spaces dropped (`TrimStartDropsSpaces` says
      that only spaces are). */
  function TrimStart(s: string): (r: string)
    ensures |r| <= |s| && r == s[|s| - |r|..]
    ensures r == [] || !IsJsSpace(r[0])
    ensures (s == [] || !IsJsSpace(s[0])) ==> r == s
  {
    if s != [] && IsJsSpace(s[0]) then TrimStart(s[1..]) else s
  }

  /** `trimEnd`: the trailing spaces dropped (`TrimEndDropsSpaces` says that
      only spaces are). */
  function TrimEnd(s: string): (r: string)
    ensures |r| <= |s| && r == s[..|r|]
    ensures r == [] || !IsJsSpace(r[|r| - 1])
    ensures (s == [] || !IsJsSpace(s[|s| - 1])) ==> r == s
  {
    if s != [] && IsJsSpace(s[|s| - 1]) then TrimEnd(s[..|s| - 1]) else s
  }

  /** Everything `trimStart` drops is a space. */
  lemma {:induction false} TrimStartDropsSpaces(s: string)
    ensures forall i :: 0 <= i < |s| - |TrimStart(s)| ==> IsJsSpace(s[i])
  {
    if s != [] && IsJsSpace(s[0]) {
      TrimStartDropsSpaces(s[1..]);
      assert forall i :: 1 <= i < |s| - |TrimStart(s)| ==> s[i] == s[1..][i - 1];
    }
  }

  /** Everything `trimEnd` drops is a space. */
  lemma {:induction false} TrimEndDropsSpaces(s: string)
    ensures forall i :: |TrimEnd(s)| <= i < |s| ==> IsJsSpace(s[i])
  {
    if s != [] && IsJsSpace(s[|s| - 1]) {
      TrimEndDropsSpaces(s[..|s| - 1]);
      assert forall i :: |TrimEnd(s)| <= i < |s| - 1 ==> s[i] == s[..|s| - 1][i];
    }
  }

  /** `r` is the infix of `s` starting at `k`, and everything of `s` outside
      it is a space. */
  predicate SpacesOutside(s: string, r: string, k: int) {
    && 0 <= k <= |s| - |r| && r == s[k..k + |r|]
    && (forall i :: 0 <= i < k ==> IsJsSpace(s[i]))
    && (forall i :: k + |r| <= i < |s| ==> IsJsSpace(s[i]))
  }

  /** `s.trim()`: no space is left at either end, and trimmed text is kept
      as it is (`TrimDropsOnlySpaces` says what is dropped). */
  function Trim(s: string): (r: string)
    ensures IsTrimmed(r)
    ensures IsTrimmed(s) ==> r == s
    ensures |r| <= |s|
  {
    TrimEnd(TrimStart(s))
  }

  /** Spaces of an infix are spaces of the whole. */
  lemma SpacesOfSuffix(s: string, t: string, k: int, m: int)
    requires 0 <= k <= |s| && t == s[k..] && 0 <= m <= |t|
    requires forall i :: m <= i < |t| ==> IsJsSpace(t[i])
    ensures forall i :: k + m <= i < |s| ==> IsJsSpace(s[i])
  {
    forall i | k + m <= i < |s|
      ensures IsJsSpace(s[i])
    {
      assert s[i] == t[i - k];
    }
  }

  /** What `trim` drops is the spaces at both ends and nothing else: the
      result is an infix of the input with only spaces around it. */
  lemma TrimDropsOnlySpaces(s: string)
    ensures exists k :: SpacesOutside(s, Trim(s), k)
  {
    var t := TrimStart(s);
    var r := TrimEnd(t);
    var k := |s| - |t|;
    assert t == s[k..] && r == t[..|r|];
    assert r == s[k..k + |r|];
    assert forall i :: 0 <= i < k ==> IsJsSpace(s[i]) by {
      TrimStartDropsSpaces(s);
    }
    assert forall i :: k + |r| <= i < |s| ==> IsJsSpace(s[i]) by {
      TrimEndDropsSpaces(t);
      SpacesOfSuffix(s, t, k, |r|);
    }
    assert SpacesOutside(s, r, k);
    assert Trim(s) == r;
  }

  /** A space on each side of a word is dropped, and the word is kept. */
  lemma TrimAroundWord(w: string)
    requires IsTrimmed(w)
    ensures Trim(" " + w + " ") == w
  {
    var v := w + " ";
    assert " " + w + " " == [' '] + v;
    TrimStartSkip(' ', v);
    assert v == w + [' '];
    TrimEndSkip(w, ' ');
    if w != [] {
      assert v[0] == w[0];
    } else {
      assert v == [' '] + [];
      TrimStartSkip(' ', []);
    }
  }

  /** A leading space is dropped by `TrimStart`. */
  lemma TrimStartSkip(c: char, t: string)
    requires IsJsSpace(c)
    ensures TrimStart([c] + t) == TrimStart(t)
  {
    assert ([c] + t)[1..] == t;
  }

  /** A trailing space is dropped by `TrimEnd`. */
  lemma TrimEndSkip(t: string, c: char)
    requires IsJsSpace(c)
    ensures TrimEnd(t + [c]) == TrimEnd(t)
  {
    assert (t + [c])[..|t|] == t;
  }



  function LowerChar(c: char): char {
    if 'A' <= c <= 'Z' then (c as int - 'A' as int + 'a' as int) as char else c
  }

  predicate IsLower(s: string) {
    forall i :: 0 <= i < |s| ==> !('A' <= s[i] <= 'Z')
  }

  /** `s.toLowerCase()` restricted to the ASCII letters. */
  function Lower(s: string): (r: string)
    ensures |r| == |s| && IsLower(r)
    ensures forall i :: 0 <= i < |s| ==> r[i] == LowerChar(s[i])
  {
    seq(|s|, i requires 0 <= i < |s| => LowerChar(s[i]))
  }

  lemma LowerOfLower(s: string)
    requires IsLower(s)
    ensures Lower(s) == s
  {
  }

  /** Lower-casing neither creates nor removes a space at either end. */
  lemma LowerKeepsTrimmed(s: string)
    requires IsTrimmed(s)
    ensures IsTrimmed(Lower(s))
  {
  }

  predicate IsDigit(c: char) {
    '0' <= c <= '9'
  }

  predicate AllDigits(s: string) {
    forall i :: 0 <= i < |s| ==> IsDigit(s[i])
  }

  function DigitChar(d: nat): (c: char)
    requires d < 10
    ensures IsDigit(c)
  {
    ('0' as int + d) as char
  }

  function DigitValue(c: char): (d: nat)
    requires IsDigit(c)
    ensures d < 10 && DigitChar(d) == c
  {
    c as int - '0' as int
  }

  /** The decimal rendering of a non-negative integer, as `${n}` prints it. */
  function NatToString(n: nat): (r: string)
    ensures r != [] && AllDigits(r)
  {
    if n < 10 then [DigitChar(n)] else NatToString(n / 10) + [DigitChar(n % 10)]
  }

  /** The decimal rendering of any integer: a leading `-` when negative. */
  function IntToString(n: int): (r: string)
    ensures r != []
    ensures r[0] == '-' <==> n < 0
  {
    if n < 0 then "-" + NatToString(-n) else NatToString(n)
  }

  /** Reads a non-empty run of decimal digits back into its value. */
  function ParseDigits(s: string): nat
    requires AllDigits(s)
  {
    if s == [] then 0 else ParseDigits(s[..|s| - 1]) * 10 + DigitValue(s[|s| - 1])
  }

  /** Reading back a rendered number gives the number. */
  lemma {:induction false} ParseNatToString(n: nat)
    ensures ParseDigits(NatToString(n)) == n
  {
    var r := NatToString(n);
    if n >= 10 {
      ParseNatToString(n / 10);
      assert r[..|r| - 1] == NatToString(n / 10);
    }
  }

  /** Distinct numbers render as distinct strings. */
  /** Like `${n}`, the rendering has no leading zero: it starts with `0`
      only for 0 itself. */
  lemma {:induction false} NatToStringNoLeadingZero(n: nat)
    ensures NatToString(n)[0] == '0' ==> n == 0
  {
    if n >= 10 {
      NatToStringNoLeadingZero(n / 10);
      assert NatToString(n)[0] == NatToString(n / 10)[0];
    }
  }

  lemma NatToStringInjective(a: nat, b: nat)
    requires NatToString(a) == NatToString(b)
    ensures a == b
  {
    ParseNatToString(a);
    ParseNatToString(b);
  }
}

=== FILE: values.dfy ===
/** The JavaScript values that reach the helpers through settings, flags and
    form fields, with the two coercions the helpers apply to them:
    `String(v)` and `Number(v)`. Numbers are integers in this model. */
module JsValues {
  import opened Text

  /** A property value. `Obj` stands for any object (its own contents are
      never looked at by the helpers); a property that is absent reads as
      `Undefined`. */
  datatype Value = Undefined | Null | Bool(b: bool) | Num(n: int) | Str(s: string) | Obj

  /** The result of `Number(v)`: an integer or NaN. */
  datatype Number = Finite(n: int) | NaN

  /** `String(v)`. */
  function ToJsString(v: Value): string {
    match v
    case Undefined => "undefined"
    case Null => "null"
    case Bool(b) => if b then "true" else "false"
    case Num(n) => IntToString(n)
    case Str(s) => s
    case Obj => "[object Object]"
  }

  /** `String(v ?? d)`: a missing or null value falls back to `d`. */
  function StringOr(v: Value, d: string): (r: string)
    ensures (v.Undefined? || v.Null?) ==> r == d
    ensures v.Str? ==> r == v.s
  {
    if v.Undefined? || v.Null? then d else ToJsString(v)
  }

  /** Is `t` an optional sign followed by at least one decimal digit? */
  predicate IsSignedDecimal(t: string) {
    if t != [] && (t[0] == '+' || t[0] == '-') then t[1..] != [] && AllDigits(t[1..])
    else t != [] && AllDigits(t)
  }

  /** `Number(s)` for the decimal integer literals: the blank string is 0,
      an optionally signed run of digits (spaces around it allowed) is its
      value, anything else is NaN. A negative result comes from a leading
      minus sign. */
  function StringToNumber(s: string): (r: Number)
    ensures r.NaN? <==> Trim(s) != [] && !IsSignedDecimal(Trim(s))
    ensures r.Finite? && r.n < 0 ==> Trim(s) != [] && Trim(s)[0] == '-'
  {
    var t := Trim(s);
    if t == [] then Finite(0)
    else if !IsSignedDecimal(t) then NaN
    else if t[0] == '-' then Finite(-(ParseDigits(t[1..]) as int))
    else if t[0] == '+' then Finite(ParseDigits(t[1..]))
    else Finite(ParseDigits(t))
  }

  /** `Number(v)`: NaN only for `undefined`, an object, or text that is not
      a decimal integer. */
  function ToNumber(v: Value): (r: Number)
    ensures r.NaN? <==> v.Undefined? || v.Obj? || (v.Str? && Trim(v.s) != [] && !IsSignedDecimal(Trim(v.s)))
  {
    match v
    case Undefined => NaN
    case Null => Finite(0)
    case Bool(b) => Finite(if b then 1 else 0)
    case Num(n) => Finite(n)
    case Str(s) => StringToNumber(s)
    case Obj => NaN
  }

  /** `Number(v) || 0`: NaN (and 0) become 0, every other number is kept.
      By kind of value: a number is itself, a boolean 1 or 0, a missing
      value, `null` and an object 0, text with no integer in it 0, and the
      digits of a number that number. */
  function NumberOrZero(v: Value): (r: int)
    ensures ToNumber(v).NaN? ==> r == 0
    ensures ToNumber(v).Finite? ==> r == ToNumber(v).n
    ensures v.Num? ==> r == v.n
    ensures v.Bool? ==> r == if v.b then 1 else 0
    ensures v.Undefined? || v.Null? || v.Obj? ==> r == 0
    ensures v.Str? && !IsSignedDecimal(Trim(v.s)) ==> r == 0
    ensures v.Str? && IsTrimmed(v.s) && v.s != [] && AllDigits(v.s) ==> r == ParseDigits(v.s)
  {
    match ToNumber(v)
    case NaN => 0
    case Finite(n) => n
  }

  /** A number rendered with `String` and read back with `Number` is the
      same number. */
  lemma {:induction false} NumberOfString(n: int)
    ensures ToNumber(Str(ToJsString(Num(n)))) == Finite(n)
  {
    var s := IntToString(n);
    var m := if n < 0 then -n else n;
    var digits := NatToString(m);
    ParseNatToString(m);
    assert IsTrimmed(s);
    if n < 0 {
      assert s == "-" + digits && s[1..] == digits;
    } else {
      assert s == digits;
    }
  }
}

=== FILE: visibility.dfy ===
/** The visibility setting of the sixteen base skills: `defaultVisibility`,
    `normalizeVisibility` (which repairs the stored object in place) and
    `composeCSS` (the style rule that hides the skills switched off). */
module Visibility {
  import opened JsValues
  import opened Lists

  /** The sixteen base skill keys, in their fixed order. */
  const Skills: seq<string> :=
    ["acr", "arc", "ath", "cra", "dec", "dip", "itm", "med",
     "nat", "occ", "prf", "rel", "soc", "ste", "sur", "thi"]

  /** The skill keys as a set. */
  const SkillSet: set<string> := set s | s in Skills

  /** The full skill name of each key. */
  const FullSkill: map<string, string> :=
    map["acr" := "acrobatics", "arc" := "arcana", "ath" := "athletics", "cra" := "crafting",
        "dec" := "deception", "dip" := "diplomacy", "itm" := "intimidation", "med" := "medicine",
        "nat" := "nature", "occ" := "occultism", "prf" := "performance", "rel" := "religion",
        "soc" := "society", "ste" := "stealth", "sur" := "survival", "thi" := "thievery"]

  lemma SkillsDistinct()
    ensures Distinct(Skills)
  {
  }

  /** The map's keys are the sixteen skills. */
  lemma FullSkillKeys()
    ensures FullSkill.Keys == SkillSet
  {
  }

  /** Every key has three letters. */
  lemma KeyLengths()
    ensures forall k :: k in FullSkill ==> |k| == 3
  {
  }

  /** Every full name has at least six letters. */
  lemma NameLengths()
    ensures forall k :: k in FullSkill ==> |FullSkill[k]| >= 6
  {
  }

  /** `FULL_SKILL[abbr] ?? abbr`. The key falls back to itself exactly when
      it is not one of the sixteen skills; a skill's full name is never a
      skill key, so its full-name selectors differ from its key selectors. */
  function FullName(abbr: string): (r: string)
    ensures abbr in FullSkill ==> r == FullSkill[abbr]
    ensures abbr !in FullSkill ==> r == abbr
    ensures r == abbr <==> abbr !in SkillSet
    ensures abbr in SkillSet ==> r !in SkillSet
  {
    FullSkillKeys();
    KeyLengths();
    NameLengths();
    if abbr in FullSkill then FullSkill[abbr] else abbr
  }

  /** A plain object: its own keys in insertion order and their values. A
      key that is not there reads as `undefined`. */
  class JsObject {
    var keys: seq<string>
    var props: map<string, Value>

    ghost predicate Valid()
      reads this
    {
      Distinct(keys) && forall k :: k in props <==> k in keys
    }

    constructor (keys0: seq<string>, props0: map<string, Value>)
      requires Distinct(keys0) && forall k :: k in props0 <==> k in keys0
      ensures Valid() && keys == keys0 && props == props0
    {
      keys := keys0;
      props := props0;
    }

    /** `obj[k]`. */
    function Get(k: string): (v: Value)
      reads this
      ensures k in props ==> v == props[k]
      ensures k !in props ==> v == Undefined
    {
      if k in props then props[k] else Undefined
    }

    /** `obj[k] = v`: a new key goes to the end, an existing one keeps its
        place. */
    method Set(k: string, v: Value)
      requires Valid()
      modifies this
      ensures Valid()
      ensures props == old(props)[k := v]
      ensures keys == if k in old(props) then old(keys) else old(keys) + [k]
    {
      if k !in props {
        keys := keys + [k];
      }
      props := props[k := v];
    }
  }

  /** The values after every key of `ks` that does not hold a boolean is
      set to `true`; everything else is as it was. */
  function NormalizedProps(p: map<string, Value>, ks: set<string>): map<string, Value> {
    map k | k in p.Keys + ks :: if k in ks && !(k in p && p[k].Bool?) then Bool(true) else p[k]
  }

  /** The predicate "not one of `keys`". */
  function Absent(keys: seq<string>): string -> bool {
    k => k !in keys
  }

  /** The keys after the same step: the old ones in their order, then the
      keys of `ks` that were missing, in the order of `ks`. */
  function NormalizedKeys(keys: seq<string>, ks: seq<string>): seq<string> {
    keys + Filter(ks, Absent(keys))
  }

  /** `defaultVisibility`: every skill visible. */
  method DefaultVisibility() returns (o: JsObject)
    ensures fresh(o) && o.Valid()
    ensures o.keys == Skills && o.props == NormalizedProps(map[], SkillSet)
  {
    SkillsDistinct();
    o := new JsObject(Skills, NormalizedProps(map[], SkillSet));
  }

  /** The elements of a list, as a set. */
  function Elems(xs: seq<string>): set<string> {
    set x | x in xs
  }

  lemma ElemsSnoc(xs: seq<string>, k: string)
    ensures Elems(xs + [k]) == Elems(xs) + {k}
  {
  }

  /** One more key in the step: it becomes `true` unless it holds a
      boolean. */
  lemma PropsStep(p: map<string, Value>, ks: set<string>, k: string)
    requires k !in ks
    ensures var q := NormalizedProps(p, ks);
      NormalizedProps(p, ks + {k}) == if k in q && q[k].Bool? then q else q[k := Bool(true)]
  {
  }

  lemma KeysStep(keys: seq<string>, ks: seq<string>, k: string)
    ensures NormalizedKeys(keys, ks + [k]) == NormalizedKeys(keys, ks) + if k in keys then [] else [k]
  {
    FilterAppend(ks, [k], Absent(keys));
    FilterOne(k, Absent(keys));
  }

  /** One turn of the loop: the next key `k` of `ks` is set to `true`
      unless it holds a boolean, and appended to the keys unless it is
      there already. */
  lemma ForceStep(p0: map<string, Value>, keys0: seq<string>, ks: seq<string>, i: nat)
    requires forall x :: x in p0 <==> x in keys0
    requires Distinct(ks) && i < |ks|
    ensures var k, q := ks[i], NormalizedProps(p0, Elems(ks[..i]));
      && NormalizedProps(p0, Elems(ks[..i + 1])) == (if k in q && q[k].Bool? then q else q[k := Bool(true)])
      && NormalizedKeys(keys0, ks[..i + 1]) == NormalizedKeys(keys0, ks[..i]) + (if k in q then [] else [k])
  {
    var k := ks[i];
    assert k !in ks[..i];
    assert ks[..i + 1] == ks[..i] + [k];
    ElemsSnoc(ks[..i], k);
    PropsStep(p0, Elems(ks[..i]), k);
    KeysStep(keys0, ks[..i], k);
  }

  /** The loop of `normalizeVisibility`: every key of `ks` that does not
      hold a boolean is set to `true`, in the order of `ks`. */
  method ForceBooleans(obj: JsObject, ks: seq<string>)
    requires obj.Valid() && Distinct(ks)
    modifies obj
    ensures obj.Valid()
    ensures obj.props == NormalizedProps(old(obj.props), Elems(ks))
    ensures obj.keys == NormalizedKeys(old(obj.keys), ks)
  {
    ghost var p0, keys0 := obj.props, obj.keys;
    for i := 0 to |ks|
      invariant obj.Valid()
      invariant obj.props == NormalizedProps(p0, Elems(ks[..i]))
      invariant obj.keys == NormalizedKeys(keys0, ks[..i])
    {
      ForceStep(p0, keys0, ks, i);
      var k := ks[i];
      if !obj.Get(k).Bool? {
        obj.Set(k, Bool(true));
      }
    }
    assert ks[..|ks|] == ks;
  }

  /** `normalizeVisibility`: a value that is not an object (`null` here)
      gives a new all-visible object; an object has every skill key that
      does not hold a boolean set to `true`, in place, and is returned. */
  method NormalizeVisibility(obj: JsObject?) returns (r: JsObject)
    requires obj != null ==> obj.Valid()
    modifies obj
    ensures r.Valid()
    ensures obj == null ==> fresh(r) && r.keys == Skills && r.props == NormalizedProps(map[], SkillSet)
    ensures obj != null ==> r == obj
    ensures obj != null ==> r.props == NormalizedProps(old(obj.props), SkillSet)
    ensures obj != null ==> r.keys == NormalizedKeys(old(obj.keys), Skills)
  {
    if obj == null {
      r := DefaultVisibility();
    } else {
      SkillsDistinct();
      ForceBooleans(obj, Skills);
      r := obj;
    }
  }

  /** Normalizing twice changes nothing more. */
  lemma NormalizedPropsIdempotent(p: map<string, Value>, ks: set<string>)
    ensures NormalizedProps(NormalizedProps(p, ks), ks) == NormalizedProps(p, ks)
  {
  }

  /** Afterwards every key of `ks` holds a boolean; a boolean that was there
      is kept and anything else became `true`; every other key and its value
      are as they were. */
  lemma NormalizedPropsMeaning(p: map<string, Value>, ks: set<string>, k: string)
    ensures var q := NormalizedProps(p, ks);
      && (k in ks ==> k in q && q[k].Bool?)
      && (k in ks && k in p && p[k].Bool? ==> q[k] == p[k])
      && (k in ks && !(k in p && p[k].Bool?) ==> q[k] == Bool(true))
      && (k !in ks ==> (k in q <==> k in p) && (k in p ==> q[k] == p[k]))
  {
  }

  /** Afterwards every key of `ks` is among the keys, and the old keys come
      first in their old order. */
  lemma NormalizedKeysMeaning(keys: seq<string>, ks: seq<string>)
    ensures forall k :: k in ks ==> k in NormalizedKeys(keys, ks)
    ensures NormalizedKeys(keys, ks)[..|keys|] == keys
  {
    FilterShape(ks, Absent(keys));
  }

  /** A second normalization adds no key. */
  lemma NormalizedKeysIdempotent(keys: seq<string>, ks: seq<string>)
    ensures NormalizedKeys(NormalizedKeys(keys, ks), ks) == NormalizedKeys(keys, ks)
  {
    var once := NormalizedKeys(keys, ks);
    NormalizedKeysMeaning(keys, ks);
    FilterNone(ks, Absent(once));
  }

  /** The all-visible default is what normalizing an empty object gives. */
  lemma DefaultIsNormalizedEmpty()
    ensures NormalizedKeys([], Skills) == Skills
  {
    NoKeysToStart(Skills);
  }

  /** Starting from no keys, normalization gives the keys to normalize. */
  lemma NoKeysToStart(ks: seq<string>)
    ensures NormalizedKeys([], ks) == ks
  {
    FilterAll(ks, Absent([]));
  }

  /** `Object.entries`: each key with its value, in key order. */
  function EntriesOf(keys: seq<string>, props: map<string, Value>): (r: seq<(string, Value)>)
    ensures |r| == |keys|
    ensures forall i :: 0 <= i < |keys| ==> r[i].0 == keys[i]
    ensures forall i :: 0 <= i < |keys| ==>
      r[i].1 == if keys[i] in props then props[keys[i]] else Undefined
  {
    seq(|keys|, i requires 0 <= i < |keys| => (keys[i], if keys[i] in props then props[keys[i]] else Undefined))
  }

  /** An entry whose value is exactly `false`. */
  predicate IsOff(e: (string, Value)) {
    e.1 == Bool(false)
  }

  function Key(e: (string, Value)): string {
    e.0
  }

  /** The keys switched off, in entry order. */
  function Hidden(entries: seq<(string, Value)>): seq<string> {
    Map(Filter(entries, IsOff), Key)
  }

  /** The eighteen selector templates tried for a skill. Each is the
      prefix here, then the key (the first eleven) or the full name (the
      last seven), then `"]`. */
  const SelectorPrefixes: seq<string> :=
    [ "li.skill[data-skill=\"",
      "li.skill[data-slug=\"",
      "li[data-skill=\"",
      "li[data-slug=\"",
      ".skill[data-skill=\"",
      ".skill[data-slug=\"",
      "[data-statistic=\"",
      "tr.skill[data-skill=\"",
      "tr[data-skill=\"",
      "div.skill[data-skill=\"",
      "[data-action=\"edit-skill\"][data-skill=\"",
      "li.skill[data-slug=\"",
      "li[data-slug=\"",
      ".skill[data-slug=\"",
      "[data-skill=\"",
      "[data-statistic=\"",
      "tr[data-skill=\"",
      "div.skill[data-skill=\"" ]

  /** How many of the templates take the key rather than the full name. */
  const KeySelectorCount: nat := 11

  /** The eighteen selectors tried for a skill, by its key and by its full
      name. */
  function Selectors(abbr: string, full: string): (r: seq<string>)
    ensures |r| == |SelectorPrefixes|
  {
    seq(|SelectorPrefixes|, i requires 0 <= i < |SelectorPrefixes| =>
      SelectorPrefixes[i] + (if i < KeySelectorCount then abbr else full) + "\"]")
  }

  /** The selector list of one hidden skill: the eighteen selectors with
      repeats removed, joined by `, `. */
  function Block(abbr: string): string {
    Join(Dedup(Selectors(abbr, FullName(abbr))), ", ")
  }

  /** The text returned when nothing is hidden. */
  const AllVisible: string := "/* PF2e Customizer: all visible */"

  /** The declaration block closing the rule. */
  const HideRule: string := " { display: none !important; }"

  /** What `composeCSS` returns. */
  function Css(entries: seq<(string, Value)>): string {
    var hidden := Hidden(entries);
    if hidden == [] then AllVisible else Join(Map(hidden, Block), ",\n") + HideRule
  }

  /** One turn of the loop of `composeCSS`: the full name, the selector
      set, the block. The block joins, by `, `, each selector of the key
      and its full name once, in the order of first occurrence. */
  method ComposeBlock(abbr: string) returns (block: string, selectors: seq<string>)
    ensures block == Join(selectors, ", ") && block == Block(abbr)
    ensures Distinct(selectors)
    ensures forall s :: s in selectors <==> s in Selectors(abbr, FullName(abbr))
    ensures forall k :: 0 <= k <= |SelectorPrefixes| ==> Dedup(Selectors(abbr, FullName(abbr))[..k]) <= selectors
  {
    var full := FullName(abbr);
    selectors := Dedup(Selectors(abbr, full));
    block := Join(selectors, ", ");
    DedupShape(Selectors(abbr, full));
    forall k | 0 <= k <= |SelectorPrefixes|
      ensures Dedup(Selectors(abbr, full)[..k]) <= selectors
    {
      DedupPrefix(Selectors(abbr, full), k);
    }
  }

  /** The loop of `composeCSS` and its return: one block per hidden key,
      joined by `,\n` and closed by the hiding declaration. */
  method JoinBlocks(hidden: seq<string>) returns (css: string)
    ensures css == Join(Map(hidden, Block), ",\n") + HideRule
  {
    var blocks: seq<string> := [];
    for i := 0 to |hidden|
      invariant blocks == Map(hidden[..i], Block)
    {
      var block, _ := ComposeBlock(hidden[i]);
      assert hidden[..i + 1] == hidden[..i] + [hidden[i]];
      MapAppend(hidden[..i], [hidden[i]], Block);
      blocks := blocks + [block];
    }
    assert hidden[..|hidden|] == hidden;
    css := Join(blocks, ",\n") + HideRule;
  }

  /** `composeCSS`: the blocks of the hidden keys, or the fixed comment when
      nothing is hidden. */
  method ComposeCss(entries: seq<(string, Value)>) returns (css: string)
    ensures css == Css(entries)
  {
    var hidden := Map(Filter(entries, IsOff), Key);
    if |hidden| == 0 {
      return AllVisible;
    }
    css := JoinBlocks(hidden);
  }

  /** A key is hidden exactly when some entry maps it to `false`. */
  lemma HiddenMembers(entries: seq<(string, Value)>, k: string)
    ensures k in Hidden(entries) <==> (k, Bool(false)) in entries
  {
    FilterShape(entries, IsOff);
    var off := Filter(entries, IsOff);
    if k in Hidden(entries) {
      var i :| 0 <= i < |off| && Key(off[i]) == k;
      assert off[i] == (k, Bool(false));
    }
    if (k, Bool(false)) in entries {
      var i :| 0 <= i < |off| && off[i] == (k, Bool(false));
      assert Hidden(entries)[i] == k;
    }
  }

  /** Of an object's entries, a key is hidden exactly when the object holds
      `false` under it. */
  lemma HiddenOfObject(keys: seq<string>, props: map<string, Value>, k: string)
    requires forall x :: x in props <==> x in keys
    ensures k in Hidden(EntriesOf(keys, props)) <==> k in props && props[k] == Bool(false)
  {
    var es := EntriesOf(keys, props);
    HiddenMembers(es, k);
    if k in props && props[k] == Bool(false) {
      var i :| 0 <= i < |keys| && keys[i] == k;
      assert es[i] == (k, Bool(false));
    }
    if (k, Bool(false)) in es {
      var i :| 0 <= i < |es| && es[i] == (k, Bool(false));
      assert keys[i] == k;
    }
  }

  /** Hidden keys come in entry order: the entries of two objects one after
      the other hide the keys of each, one after the other. */
  lemma HiddenAppend(a: seq<(string, Value)>, b: seq<(string, Value)>)
    ensures Hidden(a + b) == Hidden(a) + Hidden(b)
  {
    FilterAppend(a, b, IsOff);
    MapAppend(Filter(a, IsOff), Filter(b, IsOff), Key);
  }

  /** The fixed comment comes back exactly when no value is `false`. */
  lemma AllVisibleExactly(entries: seq<(string, Value)>)
    ensures Css(entries) == AllVisible <==> forall i :: 0 <= i < |entries| ==> entries[i].1 != Bool(false)
  {
    var hidden := Hidden(entries);
    FilterShape(entries, IsOff);
    if hidden != [] {
      var css := Css(entries);
      assert css[|css| - 1] == '}';
      assert AllVisible[|AllVisible| - 1] == '/';
      var e := Filter(entries, IsOff)[0];
      assert e in entries && IsOff(e);
    } else {
      assert Filter(entries, IsOff) == [];
      forall i | 0 <= i < |entries|
        ensures !IsOff(entries[i])
      {
        assert entries[i] in entries;
      }
    }
  }
}
